=== FILE: README.md ===
# Syllable-chain pseudoword generator

This project models the core of `pseudoword_generation.py` in Dafny, a
generator of Russian pseudowords:

* **Syllabification** (`GetSyllables`) splits a word after every vowel and
  glues any trailing consonants onto the last syllable. Then, for each
  syllable after the first, it moves one character to the previous
  syllable when the syllable is longer than two characters and starts
  with two non-vowels. After that check it moves a leading soft sign `ь`
  the same way.
* **Finale** (`GetFinale`) is the run of consonants after a syllable's
  last vowel. The word-start sentinel `[BEG]` has the empty finale. A
  syllable with no vowel has no finale: the source prints an error and
  returns `None`.
* **Model building** (`GenerateModel`) goes through the lexicon. For each
  word that passes the part-of-speech filter, it prepends the sentinel to
  the word's syllables. Each adjacent pair then adds the word's weight to
  `model[key][next]`. The weight is the word's ipm, or 1 when ipm is
  ignored. The key joins three parts with `_`:
  * the previous syllable, or its finale;
  * the zero-based position;
  * the length class: the syllable count, or empty before the last
    position in any-length mode.
* **Generation** (`GeneratePseudoword`) rebuilds the same key at every
  position. It ranks the key's candidates by weight, heaviest first. It
  draws an index in `0 .. min(n-1, n*u/100)` and appends that syllable.
  A finished word that is already in the lexicon is rejected and the
  attempt starts over, up to `max_tries` times. A missing key ends the
  call at once.

The modules follow the program's structure:

| file | module | contents |
|---|---|---|
| `common.dfy` | `Common` | `Option`, `Concat` (`"".join`), `Digits` (`str` of a natural) |
| `syllabifier.dfy` | `Syllabifier` | `Syllabify` in three phases: scan, attach, onset pass; `Finale` |
| `keys.dfy` | `Keys` | the key rule shared by builder and generator; the `_`-joined key text |
| `model.dfy` | `Model` | `BuildModel`, and a reference sum `Expected` that the table equals |
| `generator.dfy` | `Generator` | `Rank`, `TopBound`, one `Attempt`, `GeneratePseudoword` |
| `sample.dfy` | `Sample` | a worked two-word lexicon |

Modelling choices:

* **Python dictionaries** are Dafny maps.
* **Lexicon iteration order** is an explicit `order` parameter that lists
  every word once.
* **Keys** are the triple `Key(context, position, lengthClass)`.
  `Keys.KeyTextInjective` proves that the source's joined string
  determines the triple for spellable keys. `Model.BuiltKeysSpellable`
  proves every key of the built table is spellable when no lexicon word
  contains an upper-case letter of the sentinel `[BEG]`. Lower-casing at
  line 26 removes every upper-case letter; the lemma uses `B`. Then both
  index the same table.
* **The sentinel** is the `Boundary` context.
* **`randint(0, b)`** is an oracle `draw(n, b)` for the `n`-th draw. It is
  only required to stay within `0 .. b`.
* **`sorted(..., reverse=True)`** is a ranking oracle `rank`, one
  ranking per table row (`Generator.RanksTable`): every candidate once,
  heaviest first (`Generator.IsRanking`). The source sorts a row afresh at
  every draw, but the table does not change during a call and `sorted`
  gives the same order for an unchanged dictionary, so each row keeps one
  ranking. The order among equal weights is left open. `Generator.Rank`
  shows that every row has such a ranking.
* **The two failure results.** The source returns `""` both when a key is
  missing and when every try is used up. The model tells these apart as
  `NoContinuation` and `Exhausted`.

## Model

| member | source | states |
|---|---|---|
| Common.Digits | pseudoword_generation.py:45 | the decimal text of a syllable count or position is non-empty and consists of digits only |
| Common.DigitsInjective | pseudoword_generation.py:59 | different numbers have different decimal text, so positions and lengths in key strings never collide |
| Syllabifier.ScanWord | pseudoword_generation.py:71-75 | the letter loop: every closed syllable is non-empty and ends in a vowel |
| Syllabifier.ScanWordInvariant | pseudoword_generation.py:71-75 | after the letter loop, the closed syllables followed by the open buffer spell the word; each closed syllable holds exactly one vowel and ends in it; the buffer holds none; there is one closed syllable per vowel |
| Syllabifier.Attach | pseudoword_generation.py:76-79 | gluing the buffer onto the last syllable, or making it the only syllable, leaves at least one syllable and keeps the spelling |
| Syllabifier.PresyllablesShape | pseudoword_generation.py:69-79 | before the onset pass the syllables spell the word; a vowel-free word is a single syllable; otherwise there is one syllable per vowel, each with exactly one vowel |
| Syllabifier.AdjustOnset | pseudoword_generation.py:81-88 | both moves at one boundary, the cluster rule and then the soft-sign rule, keep the joint spelling of the two syllables |
| Syllabifier.OnsetPass | pseudoword_generation.py:80-88 | the pass over the syllables keeps their number and the spelled word |
| Syllabifier.AdjustOnsetVowels | pseudoword_generation.py:81-88 | when the soft sign is not a vowel, both onset moves carry only non-vowels, so each syllable keeps its vowel count |
| Syllabifier.OnsetPassVowels | pseudoword_generation.py:80-88 | the onset pass keeps exactly one vowel per syllable, and every syllable it indexes is non-empty |
| Syllabifier.Syllabify | pseudoword_generation.py:68-89 | round trip: joining the syllables gives back the word; for any vowel set there is one syllable per vowel, or a single syllable when the word has none |
| Syllabifier.SyllabifyNoVowel | pseudoword_generation.py:76-77 | a word without vowels, the empty word included, is returned as one syllable |
| Syllabifier.SyllabifyOneVowelEach | pseudoword_generation.py:68-89 | with the soft sign outside the vowel set, every syllable of a word that has a vowel contains exactly one vowel |
| Syllabifier.SyllabifyVowelBeforeLast | pseudoword_generation.py:68-89 | with the soft sign outside the vowel set, every syllable except the last contains a vowel |
| Syllabifier.TrailingConsonants | pseudoword_generation.py:102-108 | no result exactly when the syllable has no vowel; otherwise the result is the suffix after the last vowel, and it contains no vowel |
| Syllabifier.Finale | pseudoword_generation.py:98-108 | the sentinel's finale is empty; a syllable's finale is missing exactly when it has no vowel, and is otherwise the consonants after its last vowel |
| Keys.LengthClass | pseudoword_generation.py:56-58 | the length class is digits only, and it is empty exactly off the last position in any-length mode |
| Keys.KeyAtParts | pseudoword_generation.py:53-59 | the key built by `KeyAt` holds its position. Its context is the sentinel at the start, else the previous syllable. In finale mode the context is that token's finale, which is empty at the start. Its length class is as `LengthClass` states |
| Keys.LengthClassSeparates | pseudoword_generation.py:56-59 | two keys with the same non-empty length class belong to words of the same length, so the chains of different word lengths never mix |
| Keys.KeyAtPrefix | pseudoword_generation.py:119-125 | the key at a position depends only on the syllables before it, so generator and builder agree on the keys of a shared prefix |
| Keys.LengthClassBeforeLast | pseudoword_generation.py:56-58 | before the last position the length class is never "1": it is empty, or the count is at least 2 |
| Keys.KeyTextInjective | pseudoword_generation.py:59 | two keys with the same `context_position_length` text are the same key, given that no real syllable is spelled `[BEG]` |
| Model.Accumulate | pseudoword_generation.py:60-63 | after one update the entry exists and weighs the old weight (zero when missing) plus the word's weight; every key keeps a candidate |
| Model.AccumulateEffect | pseudoword_generation.py:60-63 | one update creates the entry for its key and syllable if it is missing and adds the weight to it; every other entry is unchanged |
| Model.BuildModel | pseudoword_generation.py:37-65 | every key in the built table has at least one candidate |
| Model.TrainWord | pseudoword_generation.py:52-63 | training one word keeps every key with at least one candidate (its effect on each entry is `Model.TrainWordEffect`) |
| Model.TrainOn | pseudoword_generation.py:40-48 | training a run of words keeps every key with at least one candidate (its effect on each entry is `Model.TrainOnEffect`) |
| Model.TrainWordEffect | pseudoword_generation.py:52-63 | training one word adds its weight to an entry exactly when one of its positions produces that key and syllable; all other entries are unchanged |
| Model.TrainOnEffect | pseudoword_generation.py:40-63 | training a run of words adds, to every entry, the sum of their contributions; an entry is created exactly when some selected word produces it |
| Model.WeightConservation | pseudoword_generation.py:37-65 | every entry of the table is the weight sum over the selected words that produce it; an entry exists exactly when some selected word produced it |
| Model.SoftSignKeepsLexiconTrainable | pseudoword_generation.py:54-55 | when the soft sign is not a vowel, no word reaches the finale error path while the table is built |
| Model.BuildModelChainable | pseudoword_generation.py:52-59 | when the soft sign is not a vowel, every candidate under a length class other than "1" has a vowel, so the generator can always take its finale |
| Model.TrainingWordReplayable | pseudoword_generation.py:52-63 | every selected lexicon word can be retraced: at each of its positions, its key is in the table and its syllable is a candidate |
| Model.KeySpellable | pseudoword_generation.py:53-59 | a key built from syllables that contain no upper-case `B` is spellable: its length class is digits and its context is not spelled `[BEG]` |
| Model.BuiltKeysSpellable | pseudoword_generation.py:26 | when no lexicon word contains an upper-case `B` (reading lower-cases every word), every key of the built table is spellable, so the joined key text names it uniquely |
| Generator.TopBound | pseudoword_generation.py:130 | the draw bound is a valid index; it stays within the top `u` percent; it is the largest such index unless capped at `n-1` |
| Generator.Rank | pseudoword_generation.py:129 | the ranking lists every candidate exactly once, in non-increasing weight; it is an `IsRanking`, so a ranking oracle for every table exists |
| Generator.LighterAboveIndex | pseudoword_generation.py:129-131 | in a descending ranking, at most as many candidates as follow the drawn index are strictly lighter than the drawn one |
| Generator.RankedDrawnAt | pseudoword_generation.py:129-136 | the candidate at index `i` of a descending ranking lies in its rank window: fewer than `i+1` candidates are heavier and fewer than `n-i` are lighter, so the index a draw returns pins the chosen syllable up to ties in weight |
| Generator.DrawnAtSameWeight | pseudoword_generation.py:129-136 | two syllables that a single drawn index can select weigh the same, so the draw determines the chosen syllable's weight |
| Generator.HeavierBelowIndex | pseudoword_generation.py:129-131 | in a descending ranking, fewer candidates than the drawn index are strictly heavier than the drawn one |
| Generator.ExtendDrawn | pseudoword_generation.py:117-138 | a path whose every syllable is the entry of its key's ranking at its draw's index stays so when the entry selected by the next draw is appended |
| Generator.DrawnPathsAgree | pseudoword_generation.py:117-138 | the draws determine the syllables: two paths drawn from the same draw number agree on every position both have |
| Generator.StoppedPathMaximal | pseudoword_generation.py:117-131 | a drawn path whose next key is missing cannot be extended: every path drawn from the same draw number is a prefix of it, so a repeated attempt with the same draws meets the same missing key |
| Generator.ExtendPath | pseudoword_generation.py:118-140 | appending a candidate drawn within the bound for the next key extends a valid generation path |
| Generator.DrawSyllable | pseudoword_generation.py:129-136 | taking the entry of the next key's ranking at the index drawn with draw number `draws + p` extends both the valid path and the drawn path; in finale mode a syllable before the last has a vowel |
| Generator.Attempt | pseudoword_generation.py:114-138 | one attempt spells its word from a valid path and makes one draw per syllable; the syllable at position `p` is the entry of its key's ranking at the index of draw number `draws+p`; it either completes `length` syllables or stops at the first key missing from the table |
| Generator.RecordRejected | pseudoword_generation.py:112-146 | appending a rejected attempt drawn from the next attempt's first draw keeps the record of rejected words, their paths and their draw numbers |
| Generator.GeneratePseudoword | pseudoword_generation.py:111-149 | a success is a word not in the lexicon, spelled by `length` syllables along a valid path. The call is exhausted exactly after `max_tries` rejected words, each in the lexicon and each generated along a valid path. Attempt `i` uses draws `i*length` onwards and each syllable is the ranked entry its draw selects (details below) |
| Sample.RepeatedSyllable | pseudoword_generation.py:68-89 | a consonant-vowel syllable written twice, such as "мама", splits into its two copies |
| Sample.ClusterPresyllables | pseudoword_generation.py:68-88 | a two-vowel word whose second syllable opens with consonants splits after the first vowel and then gets one onset adjustment at the only boundary |
| Sample.ClusterOnset | pseudoword_generation.py:81-85 | when two consonants other than the soft sign open the second syllable, the first moves back to the first syllable |
| Sample.SoftSignOnset | pseudoword_generation.py:81-88 | when a consonant and the soft sign open the second syllable, the consonant moves back by the cluster rule and the soft sign then follows it |
| Sample.OnsetWords | pseudoword_generation.py:68-89 | "сестра" splits into "сес" and "тра", and "письмо" into "пись" and "мо" |
| Sample.LaterClusterOnset | pseudoword_generation.py:80-85 | the cluster rule also applies at the second boundary: a consonant-vowel second syllable keeps its onset, and the first of two consonants opening the third syllable moves back |
| Sample.LaterOnsetWord | pseudoword_generation.py:68-89 | "карандаш" splits into "ка", "ран" and "даш" |
| Sample.SampleStart | pseudoword_generation.py:37-65 | with "мама" (50 ipm) and "папа" (30 ipm), the start key of two-syllable words weighs "ма" at 50 and "па" at 30 |
| Sample.SampleAfterMa | pseudoword_generation.py:37-65 | in the same lexicon, after "ма" at position 1 only "ма" has weight (50), and "па" has none |
| Sample.SampleAfterPa | pseudoword_generation.py:37-65 | in the same lexicon, after "па" at position 1 only "па" has weight (30), and "ма" has none |

What `Generator.GeneratePseudoword` states:

* At most `max_tries` words are rejected. Each one is in the lexicon and
  was generated: it is the concatenation of `length` syllables along a
  valid path, and those paths are returned.
* The call ends in `Exhausted` exactly when `max_tries` words were
  rejected. Otherwise the last attempt is the one that succeeded or met a
  missing key.
* The draws are tied to the attempts. Every attempt makes one draw per
  syllable it takes, numbered on from the previous attempt. A complete
  attempt makes `length` draws; an attempt that meets a missing key makes
  fewer and ends the call. Rejected word `i` was drawn from draws
  `i*length` onwards, and the last path from draws `|rejected|*length`
  onwards.
* At each position the syllable is the entry of its key's ranking at the
  drawn index, so it also lies in that index's rank window. The draws
  determine the path (`Generator.DrawnPathsAgree`). A retry with new draw
  numbers would shift them and break these clauses. A retry with the same
  draw numbers gives the same path, and after a missing key it meets the
  same missing key again (`Generator.StoppedPathMaximal`). The returned
  `tries` counter only restates the number of attempts.
* A `Success` has `length` syllables. Its word is their concatenation
  and is not in the lexicon. Each syllable is a candidate of its key, and
  fewer than bound+1 candidates of that key are heavier than it.
* A `NoContinuation` gives a valid shorter path whose next key is not in
  the table.
* If the first key is missing, the call stops on the first try without
  rejecting anything.

## Left out

- `ReadLexicon` (lines 17-34): file and CSV reading, UTF-8 decoding, lower-casing, and skipping hyphenated and repeated words. The lexicon is a map given to the model.
- `main` and argument parsing: the flags are the `Flags` record. The vowel list is `Syllabifier.RussianVowels`, which holds `у` once where the source lists it twice; membership is the same.
- Every `print`, verbose output and the count of used words.
- `randint` is an oracle parameter. The model says nothing about the distribution of the draws.
- Floating point: ipm values and weight sums are Dafny `real`s. Rounding in float addition is not modelled.
- The tie order of `sorted` among equal weights: `sorted` is stable, so ties keep the order of `model[key].items()`. In Python 2 that is the dictionary's iteration (hash) order. The ranking oracle `rank` leaves it open, and `Generator.Rank` picks any heaviest candidate.
- `defaultdict(dict)`: in the source, the lookup `model[key]` in `GenerateModel` creates the key. It is immediately given an entry, so the table's keys are the same.
- The arguments `u`, `length` and `max_tries` are natural numbers. A negative `u` makes `randint` fail in the source. A negative `length` or `max_tries` behaves like 0 there.
- Model.BuildModel: requires `LexiconTrainable`. With finale-only contexts, a selected word whose non-final syllable has no vowel makes the source concatenate `None` and fail. `Model.SoftSignKeepsLexiconTrainable` shows this cannot happen with the program's vowel list.
- Generator.GeneratePseudoword: requires `Chainable` in finale-only mode, for the same reason. `Model.BuildModelChainable` shows that every built table satisfies it when the soft sign is not a vowel.
- Generator.GeneratePseudoword: the syllable a draw selects is fixed only once the ranking oracle is. Across all rankings, it is some candidate whose rank window (`Generator.DrawnAt`) contains the drawn index. `Generator.DrawnAtSameWeight` shows that all such candidates weigh the same.
- The commented-out letter-by-letter alternative in `GetSyllables` is not part of this model.

=== FILE: common.dfy ===
/** Small shared vocabulary: an optional value, string concatenation over a
    sequence of strings (Python's `"".join`), and decimal text of a natural
    number (Python's `str` on a non-negative int). */
module Common {

  /** A value that may be absent; `None` models Python's implicit `None`
      return. */
  datatype Option<T> = None | Some(value: T)

  /** True if no element occurs twice in `s`. */
  predicate Distinct<T(==)>(s: seq<T>)
  {
    forall i, j | 0 <= i < j < |s| :: s[i] != s[j]
  }

  /** The strings of `ss` written one after another. */
  function Concat(ss: seq<string>): string
  {
    if |ss| == 0 then "" else ss[0] + Concat(ss[1..])
  }

  /** Concatenation distributes over sequence append. */
  lemma {:induction false} ConcatAppend(ss: seq<string>, tt: seq<string>)
    ensures Concat(ss + tt) == Concat(ss) + Concat(tt)
  {
    if |ss| == 0 {
      assert ss + tt == tt;
    } else {
      assert (ss + tt)[1..] == ss[1..] + tt;
      ConcatAppend(ss[1..], tt);
    }
  }

  /** Every character of one of the strings occurs in their concatenation. */
  lemma {:induction false} ConcatMember(ss: seq<string>, j: nat, c: char)
    requires j < |ss| && c in ss[j]
    ensures c in Concat(ss)
  {
    if j > 0 {
      ConcatMember(ss[1..], j - 1, c);
      assert ss[1..][j - 1] == ss[j];
    }
  }

  /** Replacing two neighbouring strings by two others with the same joint
      text leaves the concatenation unchanged. */
  lemma ConcatReplacePair(ss: seq<string>, i: nat, a: string, b: string)
    requires 1 <= i < |ss|
    requires a + b == ss[i - 1] + ss[i]
    ensures Concat(ss[i - 1 := a][i := b]) == Concat(ss)
  {
    var front, back := ss[..i - 1], ss[i + 1..];
    assert ss == front + [ss[i - 1], ss[i]] + back;
    assert ss[i - 1 := a][i := b] == front + [a, b] + back;
    ConcatAppend(front + [ss[i - 1], ss[i]], back);
    ConcatAppend(front, [ss[i - 1], ss[i]]);
    ConcatAppend(front + [a, b], back);
    ConcatAppend(front, [a, b]);
    ConcatPair(a, b);
    ConcatPair(ss[i - 1], ss[i]);
  }

  lemma ConcatPair(a: string, b: string)
    ensures Concat([a, b]) == a + b
  {
    assert [a, b][1..] == [b];
    assert [b][1..] == [];
    assert Concat([b]) == b + "";
  }

  /** The decimal digit character for `d`. */
  function DigitChar(d: nat): char
    requires d < 10
  {
    ('0' as int + d) as char
  }

  /** Decimal text of `n`, most significant digit first, no leading zero. */
  function Digits(n: nat): (r: string)
    ensures |r| > 0
    ensures forall i | 0 <= i < |r| :: '0' <= r[i] <= '9'
    decreases n
  {
    if n < 10 then [DigitChar(n)] else Digits(n / 10) + [DigitChar(n % 10)]
  }

  /** Exactly the one-digit numbers have one-character text. */
  lemma DigitsSingle(n: nat)
    ensures |Digits(n)| == 1 <==> n < 10
  {
    if n >= 10 {
      assert |Digits(n)| == |Digits(n / 10)| + 1;
    }
  }

  /** Decimal text determines the number. */
  lemma {:induction false} DigitsInjective(m: nat, n: nat)
    requires Digits(m) == Digits(n)
    ensures m == n
    decreases m
  {
    DigitsSingle(m);
    DigitsSingle(n);
    if m < 10 {
      assert DigitChar(m) == Digits(m)[0] == Digits(n)[0] == DigitChar(n);
    } else {
      var dm, dn := Digits(m), Digits(n);
      assert dm[..|dm| - 1] == Digits(m / 10);
      assert dn[..|dn| - 1] == Digits(n / 10);
      DigitsInjective(m / 10, n / 10);
      assert DigitChar(m % 10) == dm[|dm| - 1] == dn[|dn| - 1] == DigitChar(n % 10);
    }
  }
}

=== FILE: generator.dfy ===
/** The generator, `GeneratePseudoword` (pseudoword_generation.py:111-149):
    walk the positions, build each key with the builder's rule, rank the
    key's candidates by weight, draw an index among the top `u` percent,
    and reject a finished word that is already in the lexicon, retrying up
    to `max_tries` times. */
module Generator {
  import opened Common
  import opened Syllabifier
  import opened Keys
  import opened Model

  /** The source returns `""` for both failures; the model tells them apart. */
  datatype Outcome = Success(word: string) | NoContinuation | Exhausted

  /** `min(n - 1, n * u / 100)` (pseudoword_generation.py:130): the largest
      index the draw may return. It is a valid index, it stays within the
      top `u` percent, and it is the largest index that does. */
  function TopBound(n: nat, u: nat): (r: nat)
    requires n > 0
    ensures r < n
    ensures r * 100 <= n * u
    ensures r == n - 1 || n * u < (r + 1) * 100
  {
    var top := n * u / 100;
    if n - 1 < top then n - 1 else top
  }

  /** The candidates strictly heavier than `s`. */
  function Heavier(c: Candidates, s: string): set<string>
    requires s in c
  {
    set t | t in c && c[t] > c[s]
  }

  predicate Descending(c: Candidates, ranked: seq<string>)
    requires forall i | 0 <= i < |ranked| :: ranked[i] in c
  {
    forall i, j | 0 <= i < j < |ranked| :: c[ranked[i]] >= c[ranked[j]]
  }

  /** Some element of a non-empty finite set of candidates is heaviest. */
  lemma {:induction false} HeaviestExists(c: Candidates, rest: set<string>)
    requires rest != {} && rest <= c.Keys
    ensures exists x :: x in rest && forall y | y in rest :: c[y] <= c[x]
    decreases |rest|
  {
    var z :| z in rest;
    if rest != {z} {
      HeaviestExists(c, rest - {z});
      var x :| x in rest - {z} && forall y | y in rest - {z} :: c[y] <= c[x];
      if c[z] <= c[x] {
        assert forall y | y in rest :: c[y] <= c[x];
      } else {
        assert forall y | y in rest :: c[y] <= c[z];
      }
    }
  }

  /** `ranked` lists every candidate of `c` once, heaviest first. */
  predicate IsRanking(c: Candidates, ranked: seq<string>)
  {
    && |ranked| == |c|
    && (forall i | 0 <= i < |ranked| :: ranked[i] in c)
    && (forall x | x in c :: x in ranked)
    && Descending(c, ranked)
  }

  /** `rank` gives every row of the table a ranking. The source sorts a
      row afresh at each draw, but the table does not change during a call
      and `sorted` is deterministic on an unchanged dictionary, so each row
      has one ranking throughout. */
  predicate RanksTable(table: Table, rank: Candidates -> seq<string>)
  {
    forall k | k in table :: IsRanking(table[k], rank(table[k]))
  }

  /** `sorted(model[key].items(), key=weight, reverse=True)`: every candidate
      once, heaviest first. Equal weights may come in any order, as the
      source's order among them follows dictionary iteration. */
  method Rank(c: Candidates) returns (ranked: seq<string>)
    ensures |ranked| == |c|
    ensures Distinct(ranked)
    ensures forall i | 0 <= i < |ranked| :: ranked[i] in c
    ensures forall x | x in c :: x in ranked
    ensures Descending(c, ranked)
    ensures IsRanking(c, ranked)
  {
    ranked := [];
    var rest := c.Keys;
    while rest != {}
      invariant rest <= c.Keys
      invariant forall i | 0 <= i < |ranked| :: ranked[i] in c && ranked[i] !in rest
      invariant forall x | x in c :: x in rest || x in ranked
      invariant Distinct(ranked)
      invariant Descending(c, ranked)
      invariant forall x, i | x in rest && 0 <= i < |ranked| :: c[x] <= c[ranked[i]]
      invariant |ranked| + |rest| == |c|
      decreases |rest|
    {
      HeaviestExists(c, rest);
      var x :| x in rest && forall y | y in rest :: c[y] <= c[x];
      ranked := ranked + [x];
      rest := rest - {x};
    }
  }

  /** The indices from `lo` below `hi` name at most `hi - lo` elements. */
  lemma {:induction false} RangeElements(ranked: seq<string>, lo: nat, hi: nat)
    requires lo <= hi <= |ranked|
    ensures |set j | lo <= j < hi :: ranked[j]| <= hi - lo
    decreases hi - lo
  {
    if lo < hi {
      RangeElements(ranked, lo, hi - 1);
      assert (set j | lo <= j < hi :: ranked[j]) == (set j | lo <= j < hi - 1 :: ranked[j]) + {ranked[hi - 1]};
    }
  }

  lemma {:induction false} SubsetCardinality(a: set<string>, b: set<string>)
    requires a <= b
    ensures |a| <= |b|
    decreases |a|
  {
    if a != {} {
      var x :| x in a;
      SubsetCardinality(a - {x}, b - {x});
    }
  }

  /** In a descending ranking, fewer candidates than the index are strictly
      heavier than the candidate at that index. */
  lemma HeavierBelowIndex(c: Candidates, ranked: seq<string>, index: nat)
    requires forall i | 0 <= i < |ranked| :: ranked[i] in c
    requires forall x | x in c :: x in ranked
    requires Descending(c, ranked)
    requires index < |ranked|
    ensures |Heavier(c, ranked[index])| <= index
  {
    var front := set j | 0 <= j < index :: ranked[j];
    assert forall j | index <= j < |ranked| :: c[ranked[j]] <= c[ranked[index]];
    forall t | t in Heavier(c, ranked[index])
      ensures t in front
    {
      var j :| 0 <= j < |ranked| && ranked[j] == t;
      assert j < index;
    }
    assert Heavier(c, ranked[index]) <= front;
    SubsetCardinality(Heavier(c, ranked[index]), front);
    RangeElements(ranked, 0, index);
  }

  /** The candidates strictly lighter than `s`. */
  function Lighter(c: Candidates, s: string): set<string>
    requires s in c
  {
    set t | t in c && c[t] < c[s]
  }

  /** In a descending ranking, the candidates strictly lighter than the one
      at an index all come after it. */
  lemma LighterAboveIndex(c: Candidates, ranked: seq<string>, index: nat)
    requires forall i | 0 <= i < |ranked| :: ranked[i] in c
    requires forall x | x in c :: x in ranked
    requires Descending(c, ranked)
    requires index < |ranked|
    ensures |Lighter(c, ranked[index])| <= |ranked| - index - 1
  {
    var back := set j | index + 1 <= j < |ranked| :: ranked[j];
    assert forall j | 0 <= j <= index :: c[ranked[index]] <= c[ranked[j]];
    forall t | t in Lighter(c, ranked[index])
      ensures t in back
    {
      var j :| 0 <= j < |ranked| && ranked[j] == t;
      assert index < j;
    }
    assert Lighter(c, ranked[index]) <= back;
    SubsetCardinality(Lighter(c, ranked[index]), back);
    RangeElements(ranked, index + 1, |ranked|);
  }

  /** `s` is what index `i` of a heaviest-first ranking of `c` can hold,
      whatever the order among equal weights: fewer than `i + 1` candidates
      are heavier and fewer than `|c| - i` are lighter. */
  predicate DrawnAt(c: Candidates, s: string, i: nat)
  {
    s in c && |Heavier(c, s)| <= i < |c| - |Lighter(c, s)|
  }

  /** The rank windows of candidates of different weight do not overlap:
      the drawn index determines the weight of the chosen syllable, and so
      the syllable itself when no other candidate weighs the same. */
  lemma DrawnAtSameWeight(c: Candidates, s: string, t: string, i: nat)
    requires DrawnAt(c, s, i) && DrawnAt(c, t, i)
    ensures c[s] == c[t]
  {
    if c[s] < c[t] {
      WindowsCover(c, s, t);
    } else if c[t] < c[s] {
      WindowsCover(c, t, s);
    }
  }

  /** Between a lighter and a heavier candidate, every candidate is heavier
      than the first or lighter than the second. */
  lemma WindowsCover(c: Candidates, lo: string, hi: string)
    requires lo in c && hi in c && c[lo] < c[hi]
    ensures |c| <= |Heavier(c, lo)| + |Lighter(c, hi)|
  {
    assert Heavier(c, lo) + Lighter(c, hi) == c.Keys;
  }

  /** The candidate at each index of a ranking produced by `Rank` is one
      that index can hold. */
  lemma RankedDrawnAt(c: Candidates, ranked: seq<string>, index: nat)
    requires |ranked| == |c|
    requires forall i | 0 <= i < |ranked| :: ranked[i] in c
    requires forall x | x in c :: x in ranked
    requires Descending(c, ranked)
    requires index < |ranked|
    ensures DrawnAt(c, ranked[index], index)
  {
    HeavierBelowIndex(c, ranked, index);
    LighterAboveIndex(c, ranked, index);
  }

  /** `ss` is a generation path for a word of `length` syllables: at every
      position the key built from the syllables before it is in the table,
      its syllable is a candidate of that key, and fewer than
      `TopBound + 1` candidates are strictly heavier than it. */
  predicate ValidPath(table: Table, ss: seq<string>, length: nat, flags: Flags, vowels: set<char>, u: nat)
  {
    forall p | 0 <= p < |ss| ::
      && KeyDefined(ss, p, flags.finaleOnly, vowels)
      && KeyAt(ss, p, length, flags, vowels) in table
      && ss[p] in table[KeyAt(ss, p, length, flags, vowels)]
      && |Heavier(table[KeyAt(ss, p, length, flags, vowels)], ss[p])|
         <= TopBound(|table[KeyAt(ss, p, length, flags, vowels)]|, u)
  }

  /** `word` is spelled by `ss`, a complete generation path of `length`
      syllables. */
  predicate Generated(table: Table, ss: seq<string>, word: string, length: nat, flags: Flags, vowels: set<char>, u: nat)
  {
    |ss| == length && word == Concat(ss) && ValidPath(table, ss, length, flags, vowels, u)
  }

  /** Position `p` of `ss` was drawn with `draw(offset + p, _)`: its key is
      in the table, and its syllable is the one at the drawn index of that
      key's ranking, so it lies in the rank window of that index. */
  predicate DrawnAtPosition(table: Table, ss: seq<string>, p: nat, length: nat, flags: Flags, vowels: set<char>,
                            u: nat, rank: Candidates -> seq<string>, draw: (nat, nat) -> nat, offset: nat)
  {
    && p < |ss|
    && KeyDefined(ss, p, flags.finaleOnly, vowels)
    && KeyAt(ss, p, length, flags, vowels) in table
    && |table[KeyAt(ss, p, length, flags, vowels)]| > 0
    && Selects(table[KeyAt(ss, p, length, flags, vowels)], ss[p], rank,
               draw(offset + p, TopBound(|table[KeyAt(ss, p, length, flags, vowels)]|, u)))
  }

  /** Index `i` of the ranking of `c` holds `s`, which therefore lies in the
      rank window of `i`. */
  predicate Selects(c: Candidates, s: string, rank: Candidates -> seq<string>, i: nat)
  {
    i < |rank(c)| && rank(c)[i] == s && DrawnAt(c, s, i)
  }

  /** `ss` was drawn with `draw(offset, _)`, `draw(offset + 1, _)`, ... */
  predicate DrawnPath(table: Table, ss: seq<string>, length: nat, flags: Flags, vowels: set<char>, u: nat,
                      rank: Candidates -> seq<string>, draw: (nat, nat) -> nat, offset: nat)
  {
    forall p | 0 <= p < |ss| :: DrawnAtPosition(table, ss, p, length, flags, vowels, u, rank, draw, offset)
  }

  /** Whether a position was drawn depends only on the syllables up to it. */
  lemma DrawnAtPrefix(table: Table, ss: seq<string>, tt: seq<string>, p: nat, length: nat, flags: Flags,
                      vowels: set<char>, u: nat, rank: Candidates -> seq<string>, draw: (nat, nat) -> nat, offset: nat)
    requires DrawnAtPosition(table, ss, p, length, flags, vowels, u, rank, draw, offset)
    requires p < |tt| && ss[..p + 1] == tt[..p + 1]
    ensures DrawnAtPosition(table, tt, p, length, flags, vowels, u, rank, draw, offset)
  {
    assert ss[..p] == ss[..p + 1][..p] == tt[..p + 1][..p] == tt[..p];
    assert ss[p] == ss[..p + 1][p] == tt[..p + 1][p] == tt[p];
    KeyAtPrefix(ss, tt, p, length, flags, vowels);
  }

  /** Appending the syllable that the next draw selects for the next key
      extends a drawn path. */
  lemma ExtendDrawn(table: Table, ss: seq<string>, x: string, length: nat, flags: Flags, vowels: set<char>, u: nat,
                    rank: Candidates -> seq<string>, draw: (nat, nat) -> nat, offset: nat)
    requires DrawnPath(table, ss, length, flags, vowels, u, rank, draw, offset)
    requires KeyDefined(ss, |ss|, flags.finaleOnly, vowels)
    requires KeyAt(ss, |ss|, length, flags, vowels) in table
    requires |table[KeyAt(ss, |ss|, length, flags, vowels)]| > 0
    requires Selects(table[KeyAt(ss, |ss|, length, flags, vowels)], x, rank,
                     draw(offset + |ss|, TopBound(|table[KeyAt(ss, |ss|, length, flags, vowels)]|, u)))
    ensures DrawnPath(table, ss + [x], length, flags, vowels, u, rank, draw, offset)
  {
    var tt := ss + [x];
    assert tt[..|ss|] == ss;
    KeyAtPrefix(ss, tt, |ss|, length, flags, vowels);
    assert DrawnAtPosition(table, tt, |ss|, length, flags, vowels, u, rank, draw, offset);
    forall p | 0 <= p < |ss|
      ensures DrawnAtPosition(table, tt, p, length, flags, vowels, u, rank, draw, offset)
    {
      assert ss[..p + 1] == tt[..p + 1];
      DrawnAtPrefix(table, ss, tt, p, length, flags, vowels, u, rank, draw, offset);
    }
  }

  /** The draws determine the syllables: two paths drawn from the same
      draw number agree on every position both have. */
  lemma {:induction false} DrawnPathsAgree(table: Table, ss: seq<string>, tt: seq<string>, n: nat, length: nat,
                                           flags: Flags, vowels: set<char>, u: nat,
                                           rank: Candidates -> seq<string>, draw: (nat, nat) -> nat, offset: nat)
    requires DrawnPath(table, ss, length, flags, vowels, u, rank, draw, offset)
    requires DrawnPath(table, tt, length, flags, vowels, u, rank, draw, offset)
    requires n <= |ss| && n <= |tt|
    ensures ss[..n] == tt[..n]
    decreases n
  {
    if n > 0 {
      var p := n - 1;
      DrawnPathsAgree(table, ss, tt, p, length, flags, vowels, u, rank, draw, offset);
      assert DrawnAtPosition(table, ss, p, length, flags, vowels, u, rank, draw, offset);
      assert DrawnAtPosition(table, tt, p, length, flags, vowels, u, rank, draw, offset);
      KeyAtPrefix(ss, tt, p, length, flags, vowels);
      assert ss[..n] == ss[..p] + [ss[p]];
      assert tt[..n] == tt[..p] + [tt[p]];
    }
  }

  /** A drawn path whose next key is missing cannot be extended: every path
      drawn from the same draw number is a prefix of it. So repeating an
      attempt that met a missing key with the same draws meets it again. */
  lemma StoppedPathMaximal(table: Table, ss: seq<string>, tt: seq<string>, length: nat,
                           flags: Flags, vowels: set<char>, u: nat,
                           rank: Candidates -> seq<string>, draw: (nat, nat) -> nat, offset: nat)
    requires DrawnPath(table, ss, length, flags, vowels, u, rank, draw, offset)
    requires KeyDefined(ss, |ss|, flags.finaleOnly, vowels)
    requires KeyAt(ss, |ss|, length, flags, vowels) !in table
    requires DrawnPath(table, tt, length, flags, vowels, u, rank, draw, offset)
    ensures |tt| <= |ss| && tt == ss[..|tt|]
  {
    if |tt| > |ss| {
      DrawnPathsAgree(table, ss, tt, |ss|, length, flags, vowels, u, rank, draw, offset);
      assert ss[..|ss|] == ss;
      assert DrawnAtPosition(table, tt, |ss|, length, flags, vowels, u, rank, draw, offset);
      KeyAtPrefix(ss, tt, |ss|, length, flags, vowels);
    }
    DrawnPathsAgree(table, ss, tt, |tt|, length, flags, vowels, u, rank, draw, offset);
    assert tt[..|tt|] == tt;
  }

  /** Appending a syllable drawn for the next key extends a path. */
  lemma ExtendPath(table: Table, ss: seq<string>, x: string, length: nat, flags: Flags, vowels: set<char>, u: nat)
    requires ValidPath(table, ss, length, flags, vowels, u)
    requires KeyDefined(ss, |ss|, flags.finaleOnly, vowels)
    requires KeyAt(ss, |ss|, length, flags, vowels) in table
    requires x in table[KeyAt(ss, |ss|, length, flags, vowels)]
    requires |Heavier(table[KeyAt(ss, |ss|, length, flags, vowels)], x)|
             <= TopBound(|table[KeyAt(ss, |ss|, length, flags, vowels)]|, u)
    ensures ValidPath(table, ss + [x], length, flags, vowels, u)
  {
    var tt := ss + [x];
    forall p | 0 <= p < |tt|
      ensures KeyDefined(tt, p, flags.finaleOnly, vowels)
      ensures KeyAt(tt, p, length, flags, vowels) in table
      ensures tt[p] in table[KeyAt(tt, p, length, flags, vowels)]
      ensures |Heavier(table[KeyAt(tt, p, length, flags, vowels)], tt[p])|
              <= TopBound(|table[KeyAt(tt, p, length, flags, vowels)]|, u)
    {
      assert tt[..p] == ss[..p];
      if p < |ss| {
        assert KeyDefined(ss, p, flags.finaleOnly, vowels);
      }
      KeyAtPrefix(ss, tt, p, length, flags, vowels);
      assert tt[p] == if p < |ss| then ss[p] else x;
    }
  }

  /** One pass of the inner loop after the key check: rank the candidates
      of the next key, draw an index within the bound and take the syllable
      there. It extends the path and the drawn path, and in finale mode a
      syllable before the last has a vowel, so the next key is defined. */
  method DrawSyllable(table: Table, syllables: seq<string>, length: nat, vowels: set<char>, flags: Flags, u: nat,
                      rank: Candidates -> seq<string>, draw: (nat, nat) -> nat, draws: nat)
    returns (next: string)
    requires NonEmptyKeys(table)
    requires RanksTable(table, rank)
    requires flags.finaleOnly ==> Chainable(table, vowels)
    requires forall n: nat, b: nat :: draw(n, b) <= b
    requires |syllables| < length
    requires ValidPath(table, syllables, length, flags, vowels, u)
    requires DrawnPath(table, syllables, length, flags, vowels, u, rank, draw, draws)
    requires KeyDefined(syllables, |syllables|, flags.finaleOnly, vowels)
    requires KeyAt(syllables, |syllables|, length, flags, vowels) in table
    ensures ValidPath(table, syllables + [next], length, flags, vowels, u)
    ensures DrawnPath(table, syllables + [next], length, flags, vowels, u, rank, draw, draws)
    ensures flags.finaleOnly && |syllables| + 1 < length ==> !NoVowel(next, vowels)
  {
    var key := KeyAt(syllables, |syllables|, length, flags, vowels);
    var ranked := rank(table[key]);
    var bound := TopBound(|ranked|, u);
    var index := draw(draws + |syllables|, bound);
    next := ranked[index];
    HeavierBelowIndex(table[key], ranked, index);
    ExtendPath(table, syllables, next, length, flags, vowels, u);
    RankedDrawnAt(table[key], ranked, index);
    ExtendDrawn(table, syllables, next, length, flags, vowels, u, rank, draw, draws);
    if flags.finaleOnly && |syllables| + 1 < length {
      KeyAtParts(syllables, |syllables|, length, flags, vowels);
      LengthClassBeforeLast(|syllables|, length, flags.anyLength);
    }
  }

  /** One pass of the outer loop of `GeneratePseudoword` (its inner loop,
      pseudoword_generation.py:115-140), drawing with `draw(draws, _)`,
      `draw(draws + 1, _)`, and so on. It either completes a path of
      `length` syllables or stops at the first key missing from the table
      (so with the start key missing it draws nothing). */
  method Attempt(table: Table, length: nat, vowels: set<char>, flags: Flags, u: nat,
                 rank: Candidates -> seq<string>, draw: (nat, nat) -> nat, draws: nat)
    returns (complete: bool, syllables: seq<string>, pseudoword: string, drawsAfter: nat)
    requires NonEmptyKeys(table)
    requires RanksTable(table, rank)
    requires flags.finaleOnly ==> Chainable(table, vowels)
    requires forall n: nat, b: nat :: draw(n, b) <= b
    ensures pseudoword == Concat(syllables)
    ensures ValidPath(table, syllables, length, flags, vowels, u)
    ensures complete ==> |syllables| == length
    ensures !complete ==>
              && |syllables| < length
              && KeyDefined(syllables, |syllables|, flags.finaleOnly, vowels)
              && KeyAt(syllables, |syllables|, length, flags, vowels) !in table
    ensures DrawnPath(table, syllables, length, flags, vowels, u, rank, draw, draws)
    ensures drawsAfter == draws + |syllables|
  {
    var current := Boundary;
    var pos: nat := 0;
    pseudoword := "";
    syllables := [];
    drawsAfter := draws;
    while pos < length
      invariant pos <= length
      invariant |syllables| == pos
      invariant drawsAfter == draws + pos
      invariant pseudoword == Concat(syllables)
      invariant current == Previous(syllables, pos)
      invariant ValidPath(table, syllables, length, flags, vowels, u)
      invariant DrawnPath(table, syllables, length, flags, vowels, u, rank, draw, draws)
      invariant pos < length ==> KeyDefined(syllables, pos, flags.finaleOnly, vowels)
    {
      var context := ContextOf(current, flags.finaleOnly, vowels);
      var key := Key(context, pos, LengthClass(pos, length, flags.anyLength));
      assert key == KeyAt(syllables, pos, length, flags, vowels);
      if key !in table {
        return false, syllables, pseudoword, drawsAfter;
      }
      var next := DrawSyllable(table, syllables, length, vowels, flags, u, rank, draw, draws);
      drawsAfter := drawsAfter + 1;
      ConcatAppend(syllables, [next]);
      assert Concat([next]) == next + "";
      current := Text(next);
      syllables := syllables + [next];
      pseudoword := pseudoword + next;
      pos := pos + 1;
    }
    complete := true;
  }

  /** The number of the first draw of attempt `i` (counting from 0) when
      every earlier attempt drew `length` syllables. */
  function AttemptStart(i: nat, length: nat): nat
  {
    i * length
  }

  /** Each attempt before the last draws `length` times. */
  lemma AttemptStartNext(i: nat, length: nat)
    ensures AttemptStart(i + 1, length) == AttemptStart(i, length) + length
  {
  }

  /** The record of rejected attempts: attempt `i` spelled `rejected[i]`
      from `rejectedPaths[i]`, a complete valid path drawn from draw number
      `AttemptStart(i, length)` on. */
  predicate RejectedRecord(table: Table, rejected: seq<string>, rejectedPaths: seq<seq<string>>,
                           length: nat, flags: Flags, vowels: set<char>, u: nat,
                           rank: Candidates -> seq<string>, draw: (nat, nat) -> nat)
  {
    && |rejectedPaths| == |rejected|
    && (forall i | 0 <= i < |rejected| ::
          Generated(table, rejectedPaths[i], rejected[i], length, flags, vowels, u))
    && (forall i | 0 <= i < |rejected| ::
          DrawnPath(table, rejectedPaths[i], length, flags, vowels, u, rank, draw, AttemptStart(i, length)))
  }

  /** Rejecting one more complete attempt, drawn from the next attempt's
      first draw on, extends the record. */
  lemma RecordRejected(table: Table, rejected: seq<string>, rejectedPaths: seq<seq<string>>, w: string,
                       ss: seq<string>, length: nat, flags: Flags, vowels: set<char>, u: nat,
                       rank: Candidates -> seq<string>, draw: (nat, nat) -> nat)
    requires RejectedRecord(table, rejected, rejectedPaths, length, flags, vowels, u, rank, draw)
    requires Generated(table, ss, w, length, flags, vowels, u)
    requires DrawnPath(table, ss, length, flags, vowels, u, rank, draw, AttemptStart(|rejected|, length))
    ensures RejectedRecord(table, rejected + [w], rejectedPaths + [ss], length, flags, vowels, u, rank, draw)
  {
    var rs, ps := rejected + [w], rejectedPaths + [ss];
    forall i | 0 <= i < |rs|
      ensures Generated(table, ps[i], rs[i], length, flags, vowels, u)
      ensures DrawnPath(table, ps[i], length, flags, vowels, u, rank, draw, AttemptStart(i, length))
    {
      if i < |rejected| {
        assert ps[i] == rejectedPaths[i] && rs[i] == rejected[i];
      } else {
        assert ps[i] == ss && rs[i] == w;
      }
    }
  }

  /** `GeneratePseudoword`. `draw(n, b)` stands for the `n`-th call of
      `randint(0, b)`. A success is a novel word spelled by `length`
      syllables along a valid path; a missing key stops the call at once;
      otherwise after `maxTries` words already in the lexicon the call is
      exhausted. `rejected` lists those words in order, `rejectedPaths` the
      syllables each was generated from, and `tries` counts the attempts. */
  method GeneratePseudoword(table: Table, length: nat, lexicon: Lexicon, vowels: set<char>, flags: Flags,
                            u: nat, maxTries: nat, rank: Candidates -> seq<string>, draw: (nat, nat) -> nat)
    returns (outcome: Outcome, syllables: seq<string>, rejected: seq<string>,
             rejectedPaths: seq<seq<string>>, tries: nat)
    requires NonEmptyKeys(table)
    requires RanksTable(table, rank)
    requires flags.finaleOnly ==> Chainable(table, vowels)
    requires forall n: nat, b: nat :: draw(n, b) <= b
    ensures |rejected| <= maxTries
    ensures forall w | w in rejected :: w in lexicon
    ensures outcome.Exhausted? <==> |rejected| == maxTries
    ensures outcome.Success? ==>
              && outcome.word !in lexicon
              && Generated(table, syllables, outcome.word, length, flags, vowels, u)
    ensures outcome.NoContinuation? ==>
              && |syllables| < length
              && ValidPath(table, syllables, length, flags, vowels, u)
              && KeyDefined(syllables, |syllables|, flags.finaleOnly, vowels)
              && KeyAt(syllables, |syllables|, length, flags, vowels) !in table
    ensures 0 < length && 0 < maxTries && KeyAt([], 0, length, flags, vowels) !in table ==>
              outcome.NoContinuation? && rejected == []
    ensures !outcome.Exhausted? ==> tries == |rejected| + 1
    ensures outcome.Exhausted? ==> tries == |rejected| == maxTries
    ensures RejectedRecord(table, rejected, rejectedPaths, length, flags, vowels, u, rank, draw)
    ensures !outcome.Exhausted? ==>
              DrawnPath(table, syllables, length, flags, vowels, u, rank, draw, AttemptStart(|rejected|, length))
  {
    rejected := [];
    rejectedPaths := [];
    syllables := [];
    var draws: nat := 0;
    tries := 0;
    while tries < maxTries
      invariant tries == |rejected| <= maxTries
      invariant forall w | w in rejected :: w in lexicon
      invariant 0 < length && KeyAt([], 0, length, flags, vowels) !in table ==> rejected == []
      invariant RejectedRecord(table, rejected, rejectedPaths, length, flags, vowels, u, rank, draw)
      invariant draws == AttemptStart(|rejected|, length)
    {
      tries := tries + 1;
      var complete, pseudoword;
      complete, syllables, pseudoword, draws := Attempt(table, length, vowels, flags, u, rank, draw, draws);
      if !complete {
        outcome := NoContinuation;
        return;
      }
      assert Generated(table, syllables, pseudoword, length, flags, vowels, u);
      if pseudoword !in lexicon {
        outcome := Success(pseudoword);
        return;
      }
      RecordRejected(table, rejected, rejectedPaths, pseudoword, syllables, length, flags, vowels, u, rank, draw);
      AttemptStartNext(|rejected|, length);
      rejected := rejected + [pseudoword];
      rejectedPaths := rejectedPaths + [syllables];
    }
    outcome := Exhausted;
  }
}

=== FILE: keys.dfy ===
/** The transition key that the model builder and the generator both derive
    (pseudoword_generation.py:53-59 and 119-125): the previous syllable or
    its finale, the zero-based position, and the length class. The source
    joins the three with "_" into one string; the model keeps the triple and
    proves the joined text determines it. */
module Keys {
  import opened Common
  import opened Syllabifier

  /** The command-line switches that shape the model: the part-of-speech
      filter (`""` when unset, since the source tests its truthiness),
      finale-only contexts, the any-length bucket and ignoring ipm. */
  datatype Flags = Flags(pos: string, finaleOnly: bool, anyLength: bool, dontUseIpm: bool)

  datatype Key = Key(context: Context, position: nat, lengthClass: string)

  /** The token before position `p` of a syllable sequence: the sentinel at
      the start, otherwise the previous syllable. */
  function Previous(ss: seq<string>, p: nat): Context
    requires p <= |ss|
  {
    if p == 0 then Boundary else Text(ss[p - 1])
  }

  /** The key at position `p` can be formed: in finale mode the previous
      token must have a finale (otherwise the source concatenates `None`). */
  predicate KeyDefined(ss: seq<string>, p: nat, finaleOnly: bool, vowels: set<char>)
  {
    p <= |ss| && (finaleOnly ==> Finale(Previous(ss, p), vowels).Some?)
  }

  /** The context part of a key. */
  function ContextOf(prev: Context, finaleOnly: bool, vowels: set<char>): Context
    requires finaleOnly ==> Finale(prev, vowels).Some?
  {
    if finaleOnly then Text(Finale(prev, vowels).value) else prev
  }

  /** `s` consists of decimal digits only (the empty text included). */
  predicate DigitOnly(s: string)
  {
    forall i | 0 <= i < |s| :: '0' <= s[i] <= '9'
  }

  /** The length class: the syllable count as text, or the empty marker at
      every position but the last in any-length mode. It is digits only, and
      empty exactly off the last position in any-length mode. */
  function LengthClass(position: nat, count: nat, anyLength: bool): (r: string)
    ensures DigitOnly(r)
    ensures r == "" <==> anyLength && position + 1 != count
  {
    if anyLength && position != count - 1 then "" else Digits(count)
  }

  /** The key for position `p` of a word of `count` syllables whose first
      `p` syllables are `ss[..p]`. */
  function KeyAt(ss: seq<string>, p: nat, count: nat, flags: Flags, vowels: set<char>): Key
    requires KeyDefined(ss, p, flags.finaleOnly, vowels)
  {
    Key(ContextOf(Previous(ss, p), flags.finaleOnly, vowels), p, LengthClass(p, count, flags.anyLength))
  }

  /** What a key holds: its position; as context the previous syllable, or
      in finale mode that syllable's consonants after its last vowel, and at
      the start the sentinel, or in finale mode the empty text; and a length
      class of digits that is empty exactly off the last position in
      any-length mode. */
  lemma KeyAtParts(ss: seq<string>, p: nat, count: nat, flags: Flags, vowels: set<char>)
    requires KeyDefined(ss, p, flags.finaleOnly, vowels)
    ensures KeyAt(ss, p, count, flags, vowels).position == p
    ensures p == 0 ==> KeyAt(ss, p, count, flags, vowels).context == if flags.finaleOnly then Text("") else Boundary
    ensures p > 0 && !flags.finaleOnly ==> KeyAt(ss, p, count, flags, vowels).context == Text(ss[p - 1])
    ensures p > 0 && flags.finaleOnly ==>
              && KeyAt(ss, p, count, flags, vowels).context.Text?
              && IsFinale(KeyAt(ss, p, count, flags, vowels).context.s, ss[p - 1], vowels)
    ensures DigitOnly(KeyAt(ss, p, count, flags, vowels).lengthClass)
    ensures KeyAt(ss, p, count, flags, vowels).lengthClass == "" <==> flags.anyLength && p + 1 != count
  {
  }

  /** The key only looks at the syllables before its position. */
  lemma KeyAtPrefix(ss: seq<string>, tt: seq<string>, p: nat, count: nat, flags: Flags, vowels: set<char>)
    requires p <= |ss| && p <= |tt| && ss[..p] == tt[..p]
    requires KeyDefined(ss, p, flags.finaleOnly, vowels)
    ensures KeyDefined(tt, p, flags.finaleOnly, vowels)
    ensures KeyAt(tt, p, count, flags, vowels) == KeyAt(ss, p, count, flags, vowels)
  {
    if p > 0 {
      assert ss[p - 1] == ss[..p][p - 1] == tt[..p][p - 1] == tt[p - 1];
    }
  }

  /** A non-empty length class names the word length: two keys of words of
      different lengths never share one, so their chains stay apart. */
  lemma LengthClassSeparates(p: nat, m: nat, q: nat, n: nat, anyLength: bool)
    requires LengthClass(p, m, anyLength) == LengthClass(q, n, anyLength) != ""
    ensures m == n
  {
    DigitsInjective(m, n);
  }

  /** Before the last position the length class is never "1": it is either
      the empty marker or the text of a count of at least two. */
  lemma LengthClassBeforeLast(position: nat, count: nat, anyLength: bool)
    requires position + 1 < count
    ensures LengthClass(position, count, anyLength) != "1"
  {
    if LengthClass(position, count, anyLength) == "1" {
      assert Digits(count) == "1" == Digits(1);
      DigitsInjective(count, 1);
      assert false;
    }
  }

  // ---------------------------------------------------------------------
  // The source's string key (pseudoword_generation.py:59, 125)
  // ---------------------------------------------------------------------

  const Sentinel: string := "[BEG]"

  function ContextText(c: Context): string
  {
    match c
    case Boundary => Sentinel
    case Text(s) => s
  }

  /** The key as the source spells it: context, position and length class
      joined by underscores. */
  function KeyText(k: Key): string
  {
    ContextText(k.context) + "_" + Digits(k.position) + "_" + k.lengthClass
  }

  /** A key the program can form: the length class is digits or empty, and
      no real text equals the sentinel (words are lower-cased, the sentinel
      is not). */
  predicate Spellable(k: Key)
  {
    DigitOnly(k.lengthClass) && (k.context.Text? ==> k.context.s != Sentinel)
  }

  /** The text after the last underscore (all of it when there is none). */
  function AfterLastUnderscore(t: string): string
    decreases |t|
  {
    if |t| == 0 then ""
    else if t[|t| - 1] == '_' then ""
    else AfterLastUnderscore(t[..|t| - 1]) + [t[|t| - 1]]
  }

  lemma {:induction false} AfterLastUnderscoreJoin(x: string, c: string)
    requires DigitOnly(c)
    ensures AfterLastUnderscore(x + "_" + c) == c
    decreases |c|
  {
    var t := x + "_" + c;
    if |c| > 0 {
      assert t[..|t| - 1] == x + "_" + c[..|c| - 1];
      AfterLastUnderscoreJoin(x, c[..|c| - 1]);
      assert c == c[..|c| - 1] + [c[|c| - 1]];
    }
  }

  /** Splitting at the last underscore: a tail without underscores is
      recovered from the joined text. */
  lemma SplitLastUnderscore(x: string, c: string, y: string, d: string)
    requires x + "_" + c == y + "_" + d
    requires DigitOnly(c) && DigitOnly(d)
    ensures x == y && c == d
  {
    var t := x + "_" + c;
    AfterLastUnderscoreJoin(x, c);
    AfterLastUnderscoreJoin(y, d);
    assert x == t[..|x|] == y;
  }

  /** The underscore-joined key text is injective on spellable keys, so the
      source's string keys and the model's triples index the same table. */
  lemma KeyTextInjective(k1: Key, k2: Key)
    requires Spellable(k1) && Spellable(k2)
    requires KeyText(k1) == KeyText(k2)
    ensures k1 == k2
  {
    var head1 := ContextText(k1.context) + "_" + Digits(k1.position);
    var head2 := ContextText(k2.context) + "_" + Digits(k2.position);
    assert KeyText(k1) == head1 + "_" + k1.lengthClass;
    assert KeyText(k2) == head2 + "_" + k2.lengthClass;
    SplitLastUnderscore(head1, k1.lengthClass, head2, k2.lengthClass);
    SplitLastUnderscore(ContextText(k1.context), Digits(k1.position), ContextText(k2.context), Digits(k2.position));
    DigitsInjective(k1.position, k2.position);
    match k1.context
    case Boundary => assert k2.context == Boundary;
    case Text(_) => assert k2.context.Text?;
  }
}

=== FILE: model.dfy ===
/** The model builder, `GenerateModel` (pseudoword_generation.py:37-65): for
    every lexicon word that passes the part-of-speech filter, its syllables
    are preceded by the word-start sentinel and every adjacent pair adds the
    word's weight to `table[key][next syllable]`. */
module Model {
  import opened Common
  import opened Syllabifier
  import opened Keys

  /** A lexicon record: part of speech and frequency in instances per
      million. */
  datatype Entry = Entry(pos: string, ipm: real)

  /** Normalised word to its record. */
  type Lexicon = map<string, Entry>

  /** Next syllable to accumulated weight. */
  type Candidates = map<string, real>

  type Table = map<Key, Candidates>

  /** The part-of-speech filter: an unset (empty) filter admits every word. */
  predicate Selected(e: Entry, flags: Flags)
  {
    flags.pos == "" || e.pos == flags.pos
  }

  /** The weight a word contributes: its ipm, or 1 when ipm is ignored. */
  function WordWeight(e: Entry, flags: Flags): real
  {
    if flags.dontUseIpm then 1.0 else e.ipm
  }

  /** `order` is the lexicon's iteration order: every word exactly once. */
  predicate IsOrder(order: seq<string>, lexicon: Lexicon)
  {
    && Distinct(order)
    && (forall w | w in order :: w in lexicon)
    && (forall w | w in lexicon :: w in order)
  }

  predicate Observed(t: Table, k: Key, s: string)
  {
    k in t && s in t[k]
  }

  /** The weight stored for `s` under `k`, zero when there is none. */
  function Weight(t: Table, k: Key, s: string): real
  {
    if Observed(t, k, s) then t[k][s] else 0.0
  }

  /** Every key in the table has at least one candidate. */
  predicate NonEmptyKeys(t: Table)
  {
    forall k | k in t :: |t[k]| > 0
  }

  /** One update `table[k][s] += w`, creating the entry on first sight
      (pseudoword_generation.py:60-63). */
  function Accumulate(t: Table, k: Key, s: string, w: real): (r: Table)
    ensures NonEmptyKeys(t) ==> NonEmptyKeys(r)
    ensures Observed(r, k, s) && Weight(r, k, s) == Weight(t, k, s) + w
  {
    var row := if k in t then t[k] else map[];
    if s in row then t[k := row[s := row[s] + w]] else t[k := row[s := w]]
  }

  /** An update adds `w` to its own entry, which then exists, and leaves
      every other entry as it was. */
  lemma AccumulateEffect(t: Table, k: Key, s: string, w: real, k': Key, s': string)
    ensures Observed(Accumulate(t, k, s, w), k', s') <==> Observed(t, k', s') || (k' == k && s' == s)
    ensures Weight(Accumulate(t, k, s, w), k', s') == Weight(t, k', s') + (if k' == k && s' == s then w else 0.0)
  {
  }

  /** Every key of the word can be formed: in finale mode every syllable but
      the last has a vowel. This is exactly when the source's loop does not
      reach `GetFinale`'s error path. */
  predicate Trainable(ss: seq<string>, flags: Flags, vowels: set<char>)
  {
    forall p | 0 <= p < |ss| :: KeyDefined(ss, p, flags.finaleOnly, vowels)
  }

  /** The inner loop over the adjacent pairs of one word, from position `p`
      (the source's index `i` is `p + 1` once the sentinel is prepended). */
  function TrainWord(t: Table, ss: seq<string>, p: nat, weight: real, flags: Flags, vowels: set<char>): (r: Table)
    requires p <= |ss|
    requires Trainable(ss, flags, vowels)
    ensures NonEmptyKeys(t) ==> NonEmptyKeys(r)
    decreases |ss| - p
  {
    if p == |ss| then t
    else TrainWord(Accumulate(t, KeyAt(ss, p, |ss|, flags, vowels), ss[p], weight), ss, p + 1, weight, flags, vowels)
  }

  /** The lexicon words all have formable keys. */
  predicate LexiconTrainable(lexicon: Lexicon, flags: Flags, vowels: set<char>)
  {
    forall w | w in lexicon && Selected(lexicon[w], flags) :: Trainable(Syllabify(w, vowels), flags, vowels)
  }

  /** The outer loop over the words, in iteration order. */
  function TrainOn(t: Table, lexicon: Lexicon, words: seq<string>, flags: Flags, vowels: set<char>): (r: Table)
    requires forall w | w in words :: w in lexicon
    requires LexiconTrainable(lexicon, flags, vowels)
    ensures NonEmptyKeys(t) ==> NonEmptyKeys(r)
    decreases |words|
  {
    if |words| == 0 then t
    else
      var e := lexicon[words[0]];
      var t' := if Selected(e, flags)
                then TrainWord(t, Syllabify(words[0], vowels), 0, WordWeight(e, flags), flags, vowels)
                else t;
      TrainOn(t', lexicon, words[1..], flags, vowels)
  }

  /** `GenerateModel`: the transition table of the whole lexicon. Every key
      it holds has at least one candidate. */
  function BuildModel(lexicon: Lexicon, order: seq<string>, flags: Flags, vowels: set<char>): (r: Table)
    requires IsOrder(order, lexicon)
    requires LexiconTrainable(lexicon, flags, vowels)
    ensures NonEmptyKeys(r)
  {
    TrainOn(map[], lexicon, order, flags, vowels)
  }

  // ---------------------------------------------------------------------
  // Reference definition of the table's contents
  // ---------------------------------------------------------------------

  /** Syllable sequence `ss` has syllable `s` at position `k.position`,
      and that position's key is `k`. */
  predicate Produces(ss: seq<string>, flags: Flags, vowels: set<char>, k: Key, s: string)
  {
    && k.position < |ss|
    && KeyDefined(ss, k.position, flags.finaleOnly, vowels)
    && KeyAt(ss, k.position, |ss|, flags, vowels) == k
    && ss[k.position] == s
  }

  /** `w` is a selected lexicon word whose syllables produce `(k, s)`. */
  predicate Yields(lexicon: Lexicon, w: string, flags: Flags, vowels: set<char>, k: Key, s: string)
  {
    w in lexicon && Selected(lexicon[w], flags) && Produces(Syllabify(w, vowels), flags, vowels, k, s)
  }

  /** What a selected word adds to `(k, s)`: its weight if it produces the
      pair, nothing otherwise. */
  function Contribution(lexicon: Lexicon, w: string, flags: Flags, vowels: set<char>, k: Key, s: string): real
    requires w in lexicon
  {
    if Yields(lexicon, w, flags, vowels, k, s) then WordWeight(lexicon[w], flags) else 0.0
  }

  /** The sum of the contributions of `words`. */
  function Expected(lexicon: Lexicon, words: seq<string>, flags: Flags, vowels: set<char>, k: Key, s: string): real
    requires forall w | w in words :: w in lexicon
    decreases |words|
  {
    if |words| == 0 then 0.0
    else Contribution(lexicon, words[0], flags, vowels, k, s) + Expected(lexicon, words[1..], flags, vowels, k, s)
  }

  /** Some selected lexicon word produces `(k, s)`. */
  predicate Trained(lexicon: Lexicon, flags: Flags, vowels: set<char>, k: Key, s: string)
  {
    exists w | w in lexicon :: Yields(lexicon, w, flags, vowels, k, s)
  }

  // ---------------------------------------------------------------------
  // Weight conservation
  // ---------------------------------------------------------------------

  /** Training one word from position `p` adds the word's weight to `(k, s)`
      exactly when a position from `p` on produces it, and touches nothing
      else. */
  lemma {:induction false} TrainWordEffect(t: Table, ss: seq<string>, p: nat, weight: real, flags: Flags,
                                           vowels: set<char>, k: Key, s: string)
    requires p <= |ss|
    requires Trainable(ss, flags, vowels)
    ensures Weight(TrainWord(t, ss, p, weight, flags, vowels), k, s)
            == Weight(t, k, s) + (if p <= k.position && Produces(ss, flags, vowels, k, s) then weight else 0.0)
    ensures Observed(TrainWord(t, ss, p, weight, flags, vowels), k, s)
            <==> Observed(t, k, s) || (p <= k.position && Produces(ss, flags, vowels, k, s))
    decreases |ss| - p
  {
    if p < |ss| {
      var k0 := KeyAt(ss, p, |ss|, flags, vowels);
      var t' := Accumulate(t, k0, ss[p], weight);
      AccumulateEffect(t, k0, ss[p], weight, k, s);
      TrainWordEffect(t', ss, p + 1, weight, flags, vowels, k, s);
      if k.position == p && Produces(ss, flags, vowels, k, s) {
        assert k == k0 && s == ss[p];
      }
    }
  }

  /** Training the words in `words` adds, for every `(k, s)`, the sum of
      their contributions, and creates the entry exactly when one of them
      produces it. */
  lemma {:induction false} TrainOnEffect(t: Table, lexicon: Lexicon, words: seq<string>, flags: Flags,
                                         vowels: set<char>, k: Key, s: string)
    requires forall w | w in words :: w in lexicon
    requires LexiconTrainable(lexicon, flags, vowels)
    ensures Weight(TrainOn(t, lexicon, words, flags, vowels), k, s)
            == Weight(t, k, s) + Expected(lexicon, words, flags, vowels, k, s)
    ensures Observed(TrainOn(t, lexicon, words, flags, vowels), k, s)
            <==> Observed(t, k, s) || exists w | w in words :: Yields(lexicon, w, flags, vowels, k, s)
    decreases |words|
  {
    if |words| > 0 {
      var w0 := words[0];
      var e := lexicon[w0];
      var t' := if Selected(e, flags)
                then TrainWord(t, Syllabify(w0, vowels), 0, WordWeight(e, flags), flags, vowels)
                else t;
      if Selected(e, flags) {
        TrainWordEffect(t, Syllabify(w0, vowels), 0, WordWeight(e, flags), flags, vowels, k, s);
      }
      TrainOnEffect(t', lexicon, words[1..], flags, vowels, k, s);
      assert forall w :: w in words <==> w == w0 || w in words[1..] by {
        assert words == [w0] + words[1..];
      }
      assert (exists w | w in words :: Yields(lexicon, w, flags, vowels, k, s))
             <==> Yields(lexicon, w0, flags, vowels, k, s) ||
                  exists w | w in words[1..] :: Yields(lexicon, w, flags, vowels, k, s);
    }
  }

  /** Weight conservation: every entry of the built table is the sum, over
      the selected lexicon words, of the weight of each word whose syllable
      at the key's position has that key and is that syllable; an entry
      exists exactly when some selected word produced it. */
  lemma WeightConservation(lexicon: Lexicon, order: seq<string>, flags: Flags, vowels: set<char>, k: Key, s: string)
    requires IsOrder(order, lexicon)
    requires LexiconTrainable(lexicon, flags, vowels)
    ensures Weight(BuildModel(lexicon, order, flags, vowels), k, s) == Expected(lexicon, order, flags, vowels, k, s)
    ensures Observed(BuildModel(lexicon, order, flags, vowels), k, s) <==> Trained(lexicon, flags, vowels, k, s)
  {
    TrainOnEffect(map[], lexicon, order, flags, vowels, k, s);
  }

  // ---------------------------------------------------------------------
  // Which words can be trained, and what the table then guarantees
  // ---------------------------------------------------------------------

  /** When the soft sign is not a vowel (as in the program's vowel list),
      no lexicon reaches `GetFinale`'s error path. */
  lemma SoftSignKeepsLexiconTrainable(lexicon: Lexicon, flags: Flags, vowels: set<char>)
    requires SoftSign !in vowels
    ensures LexiconTrainable(lexicon, flags, vowels)
  {
    forall w | w in lexicon && Selected(lexicon[w], flags)
      ensures Trainable(Syllabify(w, vowels), flags, vowels)
    {
      var ss := Syllabify(w, vowels);
      SyllabifyVowelBeforeLast(w, vowels);
      forall p | 0 <= p < |ss|
        ensures KeyDefined(ss, p, flags.finaleOnly, vowels)
      {
        if p > 0 {
          assert !NoVowel(ss[p - 1], vowels);
        }
      }
    }
  }

  /** Every candidate under a key whose length class is not "1" contains a
      vowel, so the generator can take its finale. */
  predicate Chainable(t: Table, vowels: set<char>)
  {
    forall k | k in t :: forall s | s in t[k] :: k.lengthClass != "1" ==> !NoVowel(s, vowels)
  }

  /** Only single-syllable words can put a vowel-free syllable in the table,
      and they do so under length class "1". */
  lemma BuildModelChainable(lexicon: Lexicon, order: seq<string>, flags: Flags, vowels: set<char>)
    requires IsOrder(order, lexicon)
    requires SoftSign !in vowels
    ensures LexiconTrainable(lexicon, flags, vowels)
    ensures Chainable(BuildModel(lexicon, order, flags, vowels), vowels)
  {
    SoftSignKeepsLexiconTrainable(lexicon, flags, vowels);
    var t := BuildModel(lexicon, order, flags, vowels);
    forall k, s | k in t && s in t[k] && k.lengthClass != "1"
      ensures !NoVowel(s, vowels)
    {
      WeightConservation(lexicon, order, flags, vowels, k, s);
      assert Observed(t, k, s);
      var w :| w in lexicon && Yields(lexicon, w, flags, vowels, k, s);
      var ss := Syllabify(w, vowels);
      SyllabifyVowelBeforeLast(w, vowels);
      assert Digits(1) == "1";
      if k.position + 1 == |ss| {
        assert k.lengthClass == Digits(|ss|);
        assert |ss| != 1;
        NoVowelCount(w, vowels);
        SyllabifyOneVowelEach(w, vowels);
        NoVowelCount(s, vowels);
      }
    }
  }

  /** A key formed from syllables without an upper-case 'B' (a letter of
      the sentinel) is spellable. */
  lemma KeySpellable(ss: seq<string>, p: nat, count: nat, flags: Flags, vowels: set<char>)
    requires KeyDefined(ss, p, flags.finaleOnly, vowels)
    requires 'B' !in Concat(ss)
    ensures Spellable(KeyAt(ss, p, count, flags, vowels))
  {
    assert 'B' in Sentinel;
    KeyAtParts(ss, p, count, flags, vowels);
    if p > 0 && 'B' in ss[p - 1] {
      ConcatMember(ss, p - 1, 'B');
    }
    if p > 0 && flags.finaleOnly {
      var f, prev := KeyAt(ss, p, count, flags, vowels).context.s, ss[p - 1];
      assert f == prev[|prev| - |f|..];
    }
  }

  /** Lexicon words are lower-cased when read, so none contains the
      upper-case 'B' of the sentinel; then every key of the built table is
      spellable, and `Keys.KeyTextInjective` applies to it: the source's
      string keys and the model's keys index the same table. */
  lemma BuiltKeysSpellable(lexicon: Lexicon, order: seq<string>, flags: Flags, vowels: set<char>)
    requires IsOrder(order, lexicon)
    requires LexiconTrainable(lexicon, flags, vowels)
    requires forall w | w in lexicon :: 'B' !in w
    ensures forall k | k in BuildModel(lexicon, order, flags, vowels) :: Spellable(k)
  {
    var t := BuildModel(lexicon, order, flags, vowels);
    forall k | k in t
      ensures Spellable(k)
    {
      assert t[k].Keys != {};
      var s :| s in t[k];
      WeightConservation(lexicon, order, flags, vowels, k, s);
      assert Observed(t, k, s);
      var w :| w in lexicon && Yields(lexicon, w, flags, vowels, k, s);
      var ss := Syllabify(w, vowels);
      KeySpellable(ss, k.position, |ss|, flags, vowels);
    }
  }

  /** The generator can retrace every selected training word: at each
      position, the key built from the syllables before it is in the table
      and the word's syllable is one of its candidates. This is why the
      generator must reject words already in the lexicon. */
  lemma TrainingWordReplayable(lexicon: Lexicon, order: seq<string>, flags: Flags, vowels: set<char>, w: string)
    requires IsOrder(order, lexicon)
    requires LexiconTrainable(lexicon, flags, vowels)
    requires w in lexicon && Selected(lexicon[w], flags)
    ensures forall p | 0 <= p < |Syllabify(w, vowels)| ::
              KeyDefined(Syllabify(w, vowels), p, flags.finaleOnly, vowels) &&
              Observed(BuildModel(lexicon, order, flags, vowels),
                       KeyAt(Syllabify(w, vowels), p, |Syllabify(w, vowels)|, flags, vowels),
                       Syllabify(w, vowels)[p])
  {
    var ss := Syllabify(w, vowels);
    forall p | 0 <= p < |ss|
      ensures KeyDefined(ss, p, flags.finaleOnly, vowels)
      ensures Observed(BuildModel(lexicon, order, flags, vowels), KeyAt(ss, p, |ss|, flags, vowels), ss[p])
    {
      var k := KeyAt(ss, p, |ss|, flags, vowels);
      assert Produces(ss, flags, vowels, k, ss[p]);
      WeightConservation(lexicon, order, flags, vowels, k, ss[p]);
    }
  }
}

=== FILE: sample.dfy ===
/** A worked scenario: the two-word lexicon "мама" (50 ipm) and "папа"
    (30 ipm), trained with full-syllable contexts and exact lengths. */
module Sample {
  import opened Common
  import opened Syllabifier
  import opened Keys
  import opened Model

  /** Scanning a consonant-vowel syllable written twice closes two copies. */
  lemma RepeatedSyllableScan(c: char, a: char, vowels: set<char>)
    requires a in vowels && c !in vowels
    ensures ScanWord([c, a, c, a], vowels) == Scan([[c, a], [c, a]], [])
  {
    var w := [c, a, c, a];
    var ca := [c, a];
    assert w[..3] == [c, a, c] && w[..3][..2] == ca && ca[..1] == [c] && [c][..0] == [];
    assert [] + [c] == [c] && [c] + [a] == ca && [] + [ca] == [ca] && [ca] + [ca] == [ca, ca];
    assert ScanWord([c], vowels) == Scan([], [c]);
    assert ScanWord(ca, vowels) == Scan([ca], []);
    assert ScanWord([c, a, c], vowels) == Scan([ca], [c]);
  }

  /** A consonant-vowel syllable written twice splits into its two copies. */
  lemma RepeatedSyllable(c: char, a: char, vowels: set<char>)
    requires a in vowels && c !in vowels && c != SoftSign
    ensures Syllabify([c, a, c, a], vowels) == [[c, a], [c, a]]
  {
    var ca := [c, a];
    RepeatedSyllableScan(c, a, vowels);
    assert ca + [] == ca;
    assert [ca, ca][..1] == [ca];
    assert Presyllables([c, a, c, a], vowels) == [ca, ca];
    assert ca[0] == c && ca[1] == a;
    assert AdjustOnset(ca, ca, vowels) == (ca, ca);
    assert [ca, ca][0 := ca][1 := ca] == [ca, ca];
    assert OnsetPass([ca, ca], 2, vowels) == [ca, ca];
  }

  /** Scanning one more letter is one more step of the scan. */
  lemma ScanSnoc(w: string, x: char, vowels: set<char>)
    ensures ScanWord(w + [x], vowels) == ScanLetter(ScanWord(w, vowels), x, vowels)
  {
    assert (w + [x])[..|w|] == w;
  }

  /** A consonant-vowel syllable followed by a syllable opening with three
      consonants: the scan closes after each vowel. */
  lemma ClusterScan(c: char, a: char, d: char, e: char, f: char, b: char, vowels: set<char>)
    requires a in vowels && b in vowels && c !in vowels && d !in vowels && e !in vowels && f !in vowels
    ensures ScanWord([c, a, d, e, f, b], vowels) == Scan([[c, a], [d, e, f, b]], [])
  {
    ScanSnoc([], c, vowels);
    assert [] + [c] == [c];
    ScanSnoc([c], a, vowels);
    assert [c] + [a] == [c, a] && [] + [[c, a]] == [[c, a]];
    ScanSnoc([c, a], d, vowels);
    assert [c, a] + [d] == [c, a, d] && [] + [d] == [d];
    ScanSnoc([c, a, d], e, vowels);
    assert [c, a, d] + [e] == [c, a, d, e] && [d] + [e] == [d, e];
    ScanSnoc([c, a, d, e], f, vowels);
    assert [c, a, d, e] + [f] == [c, a, d, e, f] && [d, e] + [f] == [d, e, f];
    ScanSnoc([c, a, d, e, f], b, vowels);
    assert [c, a, d, e, f] + [b] == [c, a, d, e, f, b] && [d, e, f] + [b] == [d, e, f, b];
    assert [[c, a]] + [[d, e, f, b]] == [[c, a], [d, e, f, b]];
  }

  /** The presyllables of such a word, and the onset pass over them as one
      adjustment at the only boundary. */
  lemma ClusterPresyllables(c: char, a: char, d: char, e: char, f: char, b: char, vowels: set<char>)
    requires a in vowels && b in vowels && c !in vowels && d !in vowels && e !in vowels && f !in vowels
    ensures Syllabify([c, a, d, e, f, b], vowels)
            == [AdjustOnset([c, a], [d, e, f, b], vowels).0, AdjustOnset([c, a], [d, e, f, b], vowels).1]
  {
    var ca, defb := [c, a], [d, e, f, b];
    ClusterScan(c, a, d, e, f, b, vowels);
    assert defb + [] == defb;
    assert [ca, defb][..1] == [ca];
    assert Presyllables([c, a, d, e, f, b], vowels) == [ca, defb];
    var moved := AdjustOnset(ca, defb, vowels);
    assert [ca, defb][0 := moved.0][1 := moved.1] == [moved.0, moved.1];
    assert OnsetPass([moved.0, moved.1], 2, vowels) == [moved.0, moved.1];
    assert OnsetPass([ca, defb], 1, vowels) == [moved.0, moved.1];
  }

  /** Two consonants open the second syllable, the second not the soft
      sign: the first consonant moves back ("сестра" gives "сес", "тра"). */
  lemma ClusterOnset(c: char, a: char, d: char, e: char, f: char, b: char, vowels: set<char>)
    requires a in vowels && b in vowels && c !in vowels && d !in vowels && e !in vowels && f !in vowels
    requires e != SoftSign
    ensures Syllabify([c, a, d, e, f, b], vowels) == [[c, a, d], [e, f, b]]
  {
    ClusterPresyllables(c, a, d, e, f, b, vowels);
    assert [d, e, f, b][1..] == [e, f, b];
    assert [c, a] + [d] == [c, a, d];
  }

  /** A consonant and the soft sign open the second syllable: both move
      back, the consonant by the cluster rule and the soft sign after it
      ("письмо" gives "пись", "мо"). */
  lemma SoftSignOnset(c: char, a: char, d: char, f: char, b: char, vowels: set<char>)
    requires a in vowels && b in vowels && c !in vowels && d !in vowels && f !in vowels
    requires SoftSign !in vowels
    ensures Syllabify([c, a, d, SoftSign, f, b], vowels) == [[c, a, d, SoftSign], [f, b]]
  {
    ClusterPresyllables(c, a, d, SoftSign, f, b, vowels);
    assert [d, SoftSign, f, b][1..] == [SoftSign, f, b] && [SoftSign, f, b][1..] == [f, b];
    assert [c, a] + [d] == [c, a, d] && [c, a, d] + [SoftSign] == [c, a, d, SoftSign];
  }

  /** Two consonant-vowel syllables: the scan closes after each vowel. */
  lemma TwoOpenSyllablesScan(c: char, a: char, g: char, vowels: set<char>)
    requires a in vowels && c !in vowels && g !in vowels
    ensures ScanWord([c, a, g, a], vowels) == Scan([[c, a], [g, a]], [])
  {
    var w := [c, a, g, a];
    assert w[..3] == [c, a, g] && w[..3][..2] == [c, a] && [c, a][..1] == [c] && [c][..0] == [];
    assert [] + [c] == [c] && [c] + [a] == [c, a] && [] + [[c, a]] == [[c, a]];
    assert [] + [g] == [g] && [g] + [a] == [g, a] && [[c, a]] + [[g, a]] == [[c, a], [g, a]];
    assert ScanWord([c], vowels) == Scan([], [c]);
    assert ScanWord([c, a], vowels) == Scan([[c, a]], []);
    assert ScanWord([c, a, g], vowels) == Scan([[c, a]], [g]);
  }

  /** Three consonant-vowel openings, the third with a two-consonant
      onset and a final consonant: the scan closes after each vowel and
      leaves the final consonant open. */
  lemma LaterClusterScan(c: char, a: char, g: char, d: char, e: char, f: char, vowels: set<char>)
    requires a in vowels && c !in vowels && g !in vowels && d !in vowels && e !in vowels && f !in vowels
    ensures ScanWord([c, a, g, a, d, e, a, f], vowels) == Scan([[c, a], [g, a], [d, e, a]], [f])
  {
    TwoOpenSyllablesScan(c, a, g, vowels);
    ScanSnoc([c, a, g, a], d, vowels);
    assert [c, a, g, a] + [d] == [c, a, g, a, d] && [] + [d] == [d];
    ScanSnoc([c, a, g, a, d], e, vowels);
    assert [c, a, g, a, d] + [e] == [c, a, g, a, d, e] && [d] + [e] == [d, e];
    ScanSnoc([c, a, g, a, d, e], a, vowels);
    assert [c, a, g, a, d, e] + [a] == [c, a, g, a, d, e, a] && [d, e] + [a] == [d, e, a];
    assert [[c, a], [g, a]] + [[d, e, a]] == [[c, a], [g, a], [d, e, a]];
    ScanSnoc([c, a, g, a, d, e, a], f, vowels);
    assert [c, a, g, a, d, e, a] + [f] == [c, a, g, a, d, e, a, f] && [] + [f] == [f];
  }

  /** The cluster rule at the second boundary: a consonant-vowel second
      syllable keeps its onset, and the third syllable's first consonant
      moves back ("карандаш" gives "ка", "ран", "даш"). */
  lemma LaterClusterOnset(c: char, a: char, g: char, d: char, e: char, f: char, vowels: set<char>)
    requires a in vowels && c !in vowels && g !in vowels && d !in vowels && e !in vowels && f !in vowels
    requires g != SoftSign && e != SoftSign
    ensures Syllabify([c, a, g, a, d, e, a, f], vowels) == [[c, a], [g, a, d], [e, a, f]]
  {
    var w := [c, a, g, a, d, e, a, f];
    var ca, ga, deaf := [c, a], [g, a], [d, e, a, f];
    LaterClusterScan(c, a, g, d, e, f, vowels);
    var closed := [ca, ga, [d, e, a]];
    assert closed[..2] == [ca, ga];
    assert [d, e, a] + [f] == deaf;
    assert [ca, ga] + [deaf] == [ca, ga, deaf];
    assert Presyllables(w, vowels) == [ca, ga, deaf];
    assert ca[0] == c && ga[0] == g && ga[1] == a;
    assert AdjustOnset(ca, ga, vowels) == (ca, ga);
    assert [ca, ga, deaf][0 := ca][1 := ga] == [ca, ga, deaf];
    assert deaf[1..] == [e, a, f] && ga + [d] == [g, a, d];
    assert AdjustOnset(ga, deaf, vowels) == ([g, a, d], [e, a, f]);
    var last := [ca, [g, a, d], [e, a, f]];
    assert [ca, ga, deaf][1 := [g, a, d]][2 := [e, a, f]] == last;
    assert OnsetPass(last, 3, vowels) == last;
    assert OnsetPass([ca, ga, deaf], 2, vowels) == last;
    assert OnsetPass([ca, ga, deaf], 1, vowels) == last;
  }

  /** The two onset rules on Russian words. */
  lemma OnsetWords()
    ensures Syllabify("сестра", RussianVowels) == ["сес", "тра"]
    ensures Syllabify("письмо", RussianVowels) == ["пись", "мо"]
  {
    ClusterOnset('с', 'е', 'с', 'т', 'р', 'а', RussianVowels);
    SoftSignOnset('п', 'и', 'с', 'м', 'о', RussianVowels);
    assert "сестра" == ['с', 'е', 'с', 'т', 'р', 'а'] && "сес" == ['с', 'е', 'с'] && "тра" == ['т', 'р', 'а'];
    assert "письмо" == ['п', 'и', 'с', 'ь', 'м', 'о'] && "пись" == ['п', 'и', 'с', 'ь'] && "мо" == ['м', 'о'];
  }

  const Sample: Lexicon := map["мама" := Entry("NOUN", 50.0), "папа" := Entry("NOUN", 30.0)]
  const SampleOrder: seq<string> := ["мама", "папа"]
  const Plain: Flags := Flags("", false, false, false)

  lemma SampleSyllables()
    ensures Syllabify("мама", RussianVowels) == ["ма", "ма"]
    ensures Syllabify("папа", RussianVowels) == ["па", "па"]
  {
    RepeatedSyllable('м', 'а', RussianVowels);
    RepeatedSyllable('п', 'а', RussianVowels);
    assert "мама" == ['м', 'а', 'м', 'а'] && "ма" == ['м', 'а'];
    assert "папа" == ['п', 'а', 'п', 'а'] && "па" == ['п', 'а'];
  }

  /** The built table's weight for `(k, s)` is 50 if the syllables of
      "мама" produce it, plus 30 if those of "папа" do. */
  lemma SampleWeight(k: Key, s: string)
    ensures Weight(BuildModel(Sample, SampleOrder, Plain, RussianVowels), k, s)
            == (if Produces(["ма", "ма"], Plain, RussianVowels, k, s) then 50.0 else 0.0)
             + (if Produces(["па", "па"], Plain, RussianVowels, k, s) then 30.0 else 0.0)
  {
    assert "мама" != "папа";
    assert IsOrder(SampleOrder, Sample);
    SoftSignKeepsLexiconTrainable(Sample, Plain, RussianVowels);
    WeightConservation(Sample, SampleOrder, Plain, RussianVowels, k, s);
    assert SampleOrder[1..] == ["папа"] && SampleOrder[1..][1..] == [];
    SampleSyllables();
  }

  /** The keys of the two words' positions. */
  lemma SampleKeys()
    ensures KeyAt(["ма", "ма"], 0, 2, Plain, RussianVowels) == Key(Boundary, 0, "2")
    ensures KeyAt(["па", "па"], 0, 2, Plain, RussianVowels) == Key(Boundary, 0, "2")
    ensures KeyAt(["ма", "ма"], 1, 2, Plain, RussianVowels) == Key(Text("ма"), 1, "2")
    ensures KeyAt(["па", "па"], 1, 2, Plain, RussianVowels) == Key(Text("па"), 1, "2")
  {
    assert Digits(2) == "2";
  }

  /** Both words open on the start key of two-syllable words, each with its
      own frequency. */
  lemma SampleStart()
    ensures Weight(BuildModel(Sample, SampleOrder, Plain, RussianVowels), Key(Boundary, 0, "2"), "ма") == 50.0
    ensures Weight(BuildModel(Sample, SampleOrder, Plain, RussianVowels), Key(Boundary, 0, "2"), "па") == 30.0
  {
    SampleKeys();
    SampleWeight(Key(Boundary, 0, "2"), "ма");
    SampleWeight(Key(Boundary, 0, "2"), "па");
  }

  /** After "ма" only "ма" has been seen. */
  lemma SampleAfterMa()
    ensures Weight(BuildModel(Sample, SampleOrder, Plain, RussianVowels), Key(Text("ма"), 1, "2"), "ма") == 50.0
    ensures Weight(BuildModel(Sample, SampleOrder, Plain, RussianVowels), Key(Text("ма"), 1, "2"), "па") == 0.0
  {
    SampleKeys();
    SampleWeight(Key(Text("ма"), 1, "2"), "ма");
    SampleWeight(Key(Text("ма"), 1, "2"), "па");
  }

  /** After "па" only "па" has been seen. */
  lemma SampleAfterPa()
    ensures Weight(BuildModel(Sample, SampleOrder, Plain, RussianVowels), Key(Text("па"), 1, "2"), "па") == 30.0
    ensures Weight(BuildModel(Sample, SampleOrder, Plain, RussianVowels), Key(Text("па"), 1, "2"), "ма") == 0.0
  {
    SampleKeys();
    SampleWeight(Key(Text("па"), 1, "2"), "па");
    SampleWeight(Key(Text("па"), 1, "2"), "ма");
  }

  /** The cluster rule at a later boundary on a Russian word. */
  lemma LaterOnsetWord()
    ensures Syllabify("карандаш", RussianVowels) == ["ка", "ран", "даш"]
  {
    LaterClusterOnset('к', 'а', 'р', 'н', 'д', 'ш', RussianVowels);
    assert "карандаш" == ['к', 'а', 'р', 'а', 'н', 'д', 'а', 'ш'];
    assert "ка" == ['к', 'а'] && "ран" == ['р', 'а', 'н'] && "даш" == ['д', 'а', 'ш'];
  }
}

=== FILE: syllabifier.dfy ===
/** The syllabifier of `pseudoword_generation.py`: `GetSyllables` splits a
    word after every vowel, glues trailing consonants onto the last syllable
    and then shifts onset consonants (and a leading soft sign) one syllable
    to the left; `GetFinale` reads the consonants after a syllable's last
    vowel. Words are strings of characters; the vowel set is a parameter. */
module Syllabifier {
  import opened Common

  /** The soft sign, which the onset pass always moves to the previous
      syllable. */
  const SoftSign: char := 'ь'

  /** The vowel list the program uses (the source lists 'у' twice). */
  const RussianVowels: set<char> := {'а', 'у', 'е', 'ё', 'и', 'о', 'ы', 'э', 'ю', 'я'}

  /** Number of vowel occurrences in `s`. */
  function VowelCount(s: string, vowels: set<char>): nat
  {
    if |s| == 0 then 0 else (if s[0] in vowels then 1 else 0) + VowelCount(s[1..], vowels)
  }

  /** `s` contains no vowel. */
  predicate NoVowel(s: string, vowels: set<char>)
  {
    forall i | 0 <= i < |s| :: s[i] !in vowels
  }

  lemma {:induction false} VowelCountAppend(a: string, b: string, vowels: set<char>)
    ensures VowelCount(a + b, vowels) == VowelCount(a, vowels) + VowelCount(b, vowels)
  {
    if |a| == 0 {
      assert a + b == b;
    } else {
      assert (a + b)[1..] == a[1..] + b;
      VowelCountAppend(a[1..], b, vowels);
    }
  }

  lemma {:induction false} NoVowelCount(s: string, vowels: set<char>)
    ensures NoVowel(s, vowels) <==> VowelCount(s, vowels) == 0
  {
    if |s| > 0 {
      NoVowelCount(s[1..], vowels);
      assert forall i | 1 <= i < |s| :: s[i] == s[1..][i - 1];
    }
  }

  // ---------------------------------------------------------------------
  // Phase 1: the letter scan (pseudoword_generation.py:71-75)
  // ---------------------------------------------------------------------

  /** State of the letter scan: the syllables closed so far and the open
      buffer (`current_syllable`). */
  datatype Scan = Scan(closed: seq<string>, open: string)

  /** One loop iteration: append the letter; a vowel closes the buffer. */
  function ScanLetter(st: Scan, c: char, vowels: set<char>): Scan
  {
    var buffer := st.open + [c];
    if c in vowels then Scan(st.closed + [buffer], "") else Scan(st.closed, buffer)
  }

  /** The scan over the whole word, letter by letter from the left. Every
      closed syllable is non-empty and ends in a vowel. */
  function ScanWord(word: string, vowels: set<char>): (r: Scan)
    ensures forall j | 0 <= j < |r.closed| :: |r.closed[j]| > 0 && r.closed[j][|r.closed[j]| - 1] in vowels
    decreases |word|
  {
    if |word| == 0 then Scan([], "")
    else ScanLetter(ScanWord(word[..|word| - 1], vowels), word[|word| - 1], vowels)
  }

  /** What the scan has produced from `word`: closed syllables followed by
      the buffer spell the word, each closed syllable holds exactly one
      vowel, the buffer holds none, and there is one closed syllable per
      vowel. */
  predicate ScanInvariant(st: Scan, word: string, vowels: set<char>)
  {
    && Concat(st.closed) + st.open == word
    && VowelCount(st.open, vowels) == 0
    && |st.closed| == VowelCount(word, vowels)
    && forall j | 0 <= j < |st.closed| :: VowelCount(st.closed[j], vowels) == 1
  }

  lemma ScanLetterInvariant(st: Scan, prefix: string, c: char, vowels: set<char>)
    requires ScanInvariant(st, prefix, vowels)
    ensures ScanInvariant(ScanLetter(st, c, vowels), prefix + [c], vowels)
  {
    VowelCountAppend(prefix, [c], vowels);
    VowelCountAppend(st.open, [c], vowels);
    var buffer := st.open + [c];
    if c in vowels {
      ConcatAppend(st.closed, [buffer]);
      assert Concat([buffer]) == buffer + "";
      var closed := st.closed + [buffer];
      assert forall j | 0 <= j < |st.closed| :: closed[j] == st.closed[j];
    }
  }

  lemma {:induction false} ScanWordInvariant(word: string, vowels: set<char>)
    ensures ScanInvariant(ScanWord(word, vowels), word, vowels)
    decreases |word|
  {
    if |word| > 0 {
      var prefix, c := word[..|word| - 1], word[|word| - 1];
      ScanWordInvariant(prefix, vowels);
      assert word == prefix + [c];
      ScanLetterInvariant(ScanWord(prefix, vowels), prefix, c, vowels);
    }
  }

  // ---------------------------------------------------------------------
  // Phase 2: the trailing consonants (pseudoword_generation.py:76-79)
  // ---------------------------------------------------------------------

  /** With no closed syllable the buffer is the only syllable; otherwise the
      buffer is glued onto the last closed syllable. Either way there is at
      least one syllable and the spelling is kept. */
  function Attach(closed: seq<string>, open: string): (r: seq<string>)
    ensures |r| == if |closed| == 0 then 1 else |closed|
    ensures Concat(r) == Concat(closed) + open
  {
    if |closed| == 0 then
      assert Concat([open]) == open + "";
      [open]
    else
      var n := |closed|;
      assert closed == closed[..n - 1] + [closed[n - 1]];
      ConcatAppend(closed[..n - 1], [closed[n - 1]]);
      ConcatAppend(closed[..n - 1], [closed[n - 1] + open]);
      assert Concat([closed[n - 1]]) == closed[n - 1] + "";
      assert Concat([closed[n - 1] + open]) == closed[n - 1] + open + "";
      closed[..n - 1] + [closed[n - 1] + open]
  }

  // ---------------------------------------------------------------------
  // Phase 3: the onset pass (pseudoword_generation.py:80-88)
  // ---------------------------------------------------------------------

  /** Moves the first character of `next` to the end of `prev`. */
  function ShiftFirst(prev: string, next: string): (r: (string, string))
    requires |next| > 0
    ensures r.0 + r.1 == prev + next
  {
    (prev + [next[0]], next[1..])
  }

  /** The two adjustments for one syllable boundary: a syllable of more than
      two characters opening with two non-vowels gives its first character
      away; then a syllable opening with the soft sign gives that away. */
  function AdjustOnset(prev: string, next: string, vowels: set<char>): (r: (string, string))
    requires |next| > 0
    ensures r.0 + r.1 == prev + next
  {
    var cluster := if |next| > 2 && next[0] !in vowels && next[1] !in vowels
                   then ShiftFirst(prev, next) else (prev, next);
    if cluster.1[0] == SoftSign then ShiftFirst(cluster.0, cluster.1) else cluster
  }

  /** The onset pass from syllable `i` on. The source indexes the first
      character of every syllable it visits, so those must be non-empty.
      Characters only move across syllable boundaries, so the spelling is
      kept. */
  function OnsetPass(ss: seq<string>, i: nat, vowels: set<char>): (r: seq<string>)
    requires 1 <= i
    requires forall j | i <= j < |ss| :: |ss[j]| > 0
    ensures |r| == |ss|
    ensures Concat(r) == Concat(ss)
    decreases |ss| - i
  {
    if i >= |ss| then ss
    else
      var moved := AdjustOnset(ss[i - 1], ss[i], vowels);
      ConcatReplacePair(ss, i, moved.0, moved.1);
      OnsetPass(ss[i - 1 := moved.0][i := moved.1], i + 1, vowels)
  }

  /** The syllables of `word`, as `GetSyllables` computes them. Joined they
      give back the word, and there is one syllable per vowel, or a single
      syllable when the word has no vowel. */
  function Syllabify(word: string, vowels: set<char>): (r: seq<string>)
    ensures Concat(r) == word
    ensures |r| == if VowelCount(word, vowels) == 0 then 1 else VowelCount(word, vowels)
  {
    PresyllablesShape(word, vowels);
    OnsetPass(Presyllables(word, vowels), 1, vowels)
  }

  // ---------------------------------------------------------------------
  // Properties of the syllabifier
  // ---------------------------------------------------------------------

  /** When the soft sign is not a vowel, the onset adjustment moves only
      non-vowels, so each side keeps its vowel count. */
  lemma AdjustOnsetVowels(prev: string, next: string, vowels: set<char>)
    requires |next| > 0
    requires SoftSign !in vowels
    ensures VowelCount(AdjustOnset(prev, next, vowels).0, vowels) == VowelCount(prev, vowels)
    ensures VowelCount(AdjustOnset(prev, next, vowels).1, vowels) == VowelCount(next, vowels)
  {
    var cluster := if |next| > 2 && next[0] !in vowels && next[1] !in vowels
                   then ShiftFirst(prev, next) else (prev, next);
    if |next| > 2 && next[0] !in vowels && next[1] !in vowels {
      VowelCountAppend(prev, [next[0]], vowels);
    }
    assert VowelCount(cluster.0, vowels) == VowelCount(prev, vowels);
    assert VowelCount(cluster.1, vowels) == VowelCount(next, vowels);
    if cluster.1[0] == SoftSign {
      VowelCountAppend(cluster.0, [cluster.1[0]], vowels);
    }
  }

  lemma {:induction false} OnsetPassVowels(ss: seq<string>, i: nat, vowels: set<char>)
    requires 1 <= i
    requires SoftSign !in vowels
    requires forall j | 0 <= j < |ss| :: VowelCount(ss[j], vowels) == 1
    ensures forall j | i <= j < |ss| :: |ss[j]| > 0
    ensures forall j | 0 <= j < |OnsetPass(ss, i, vowels)| :: VowelCount(OnsetPass(ss, i, vowels)[j], vowels) == 1
    decreases |ss| - i
  {
    if i < |ss| {
      var moved := AdjustOnset(ss[i - 1], ss[i], vowels);
      AdjustOnsetVowels(ss[i - 1], ss[i], vowels);
      OnsetPassVowels(ss[i - 1 := moved.0][i := moved.1], i + 1, vowels);
    }
  }

  /** The syllable list as the first two phases leave it. */
  function Presyllables(word: string, vowels: set<char>): (r: seq<string>)
    ensures forall j | 1 <= j < |r| :: |r[j]| > 0
  {
    var st := ScanWord(word, vowels);
    Attach(st.closed, st.open)
  }

  /** After the first two phases: the syllables spell the word, all but the
      first are non-empty, a vowel-free word is a single syllable, and
      otherwise there is one syllable per vowel holding exactly that vowel. */
  lemma PresyllablesShape(word: string, vowels: set<char>)
    ensures Concat(Presyllables(word, vowels)) == word
    ensures VowelCount(word, vowels) == 0 ==> Presyllables(word, vowels) == [word]
    ensures VowelCount(word, vowels) > 0 ==> |Presyllables(word, vowels)| == VowelCount(word, vowels)
    ensures VowelCount(word, vowels) > 0 ==>
              forall j | 0 <= j < |Presyllables(word, vowels)| :: VowelCount(Presyllables(word, vowels)[j], vowels) == 1
  {
    var st := ScanWord(word, vowels);
    ScanWordInvariant(word, vowels);
    var ps := Attach(st.closed, st.open);
    if |st.closed| > 0 {
      var n := |st.closed|;
      VowelCountAppend(st.closed[n - 1], st.open, vowels);
      assert forall j | 0 <= j < n - 1 :: ps[j] == st.closed[j];
      assert ps[n - 1] == st.closed[n - 1] + st.open;
    } else {
      assert Concat(st.closed) == "";
      assert st.open == word;
    }
  }

  /** A word without a vowel, the empty word included, is one syllable. */
  lemma SyllabifyNoVowel(word: string, vowels: set<char>)
    requires NoVowel(word, vowels)
    ensures Syllabify(word, vowels) == [word]
  {
    NoVowelCount(word, vowels);
    PresyllablesShape(word, vowels);
  }

  /** When the soft sign is not a vowel, a word with a vowel has exactly one
      vowel in each syllable. */
  lemma SyllabifyOneVowelEach(word: string, vowels: set<char>)
    requires SoftSign !in vowels
    requires !NoVowel(word, vowels)
    ensures |Syllabify(word, vowels)| == VowelCount(word, vowels)
    ensures forall j | 0 <= j < |Syllabify(word, vowels)| :: VowelCount(Syllabify(word, vowels)[j], vowels) == 1
  {
    NoVowelCount(word, vowels);
    PresyllablesShape(word, vowels);
    OnsetPassVowels(Presyllables(word, vowels), 1, vowels);
  }

  /** When the soft sign is not a vowel, every syllable but the last of any
      word holds a vowel (a vowel-free word has only a last syllable). */
  lemma SyllabifyVowelBeforeLast(word: string, vowels: set<char>)
    requires SoftSign !in vowels
    ensures forall j | 0 <= j < |Syllabify(word, vowels)| - 1 :: !NoVowel(Syllabify(word, vowels)[j], vowels)
  {
    if NoVowel(word, vowels) {
      SyllabifyNoVowel(word, vowels);
    } else {
      SyllabifyOneVowelEach(word, vowels);
      forall j | 0 <= j < |Syllabify(word, vowels)| - 1
        ensures !NoVowel(Syllabify(word, vowels)[j], vowels)
      {
        NoVowelCount(Syllabify(word, vowels)[j], vowels);
      }
    }
  }

  // ---------------------------------------------------------------------
  // GetFinale (pseudoword_generation.py:98-108)
  // ---------------------------------------------------------------------

  /** A syllable-position token: the word-start sentinel (`"[BEG]"` in the
      source) or a piece of text. */
  datatype Context = Boundary | Text(s: string)

  /** `f` is the longest vowel-free suffix of `s`, and `s` has a vowel
      right before it. */
  predicate IsFinale(f: string, s: string, vowels: set<char>)
  {
    && |f| < |s|
    && s[|s| - |f| - 1] in vowels
    && s[|s| - |f|..] == f
    && NoVowel(f, vowels)
  }

  /** The loop of `GetFinale`: scan from the right, collecting non-vowels
      until a vowel is met. Running off the left end is the source's error
      path (an error message and an implicit `None`). */
  function TrailingConsonants(s: string, vowels: set<char>): (r: Option<string>)
    ensures r.None? <==> NoVowel(s, vowels)
    ensures r.Some? ==> IsFinale(r.value, s, vowels)
    decreases |s|
  {
    if |s| == 0 then None
    else if s[|s| - 1] in vowels then Some("")
    else
      match TrailingConsonants(s[..|s| - 1], vowels)
      case None => None
      case Some(f) => Some(f + [s[|s| - 1]])
  }

  /** `GetFinale`: the sentinel's finale is empty; otherwise the consonants
      after the last vowel, or `None` when there is no vowel. */
  function Finale(c: Context, vowels: set<char>): (r: Option<string>)
    ensures c.Boundary? ==> r == Some("")
    ensures c.Text? ==> (r.None? <==> NoVowel(c.s, vowels))
    ensures c.Text? && r.Some? ==> IsFinale(r.value, c.s, vowels)
  {
    match c
    case Boundary => Some("")
    case Text(s) => TrailingConsonants(s, vowels)
  }
}
